=== FILE: README.md ===
# Chatbot chat core, modelled in Dafny

This project models the part of the chatbot web application that carries one
chat turn end to end:

- the client helpers that show the turn optimistically, send it and classify
  a failed request into an error toast. They also roll the message list back
  after a failure, read the streamed answer chunk by chunk into the assistant
  message, and keep a guest's messages and file items in memory;
- `consumeReadableStream`, which reads a response body to its end. It hands
  every decoded chunk to a callback, honours an abort signal and always
  releases its reader;
- the server side: the profile that a provider route reads its keys from.
  That profile comes from Supabase or is a guest profile, and environment
  variables override its keys. It also covers the guard that refuses a
  missing key;
- the OpenAI and Anthropic chat routes. Each builds its provider request and
  turns almost every error into a JSON answer, whose status and text are
  chosen by a first-match keyword chain. The exception is an Anthropic stream
  that cannot be wrapped: it is answered with a fixed 500 and the
  parse-failure text, without an `error` field;
- the quick-settings menu, where presets and assistants are listed, searched,
  applied and removed;
- the model picker, which lists every known model grouped by provider.

Each source file is one module:

| module | file |
|---|---|
| `ChatHelpers` | `chat_helpers.dfy` |
| `ConsumeStream` | `consume_stream.dfy` |
| `ServerChatHelpers` | `server_chat_helpers.dfy` |
| `OpenAIRoute` | `openai_route.dfy` |
| `AnthropicRoute` | `anthropic_route.dfy` |
| `QuickSettings` | `quick_settings.dfy` |
| `ModelSelectButton` | `model_select_button.dfy` |

Shared vocabulary lives in four support modules:

- `Wrappers`: `Option`, `Outcome` and `Result`;
- `Text`: JavaScript's string operations, with lower-casing on ASCII;
- `ChatTypes`: chat settings, models, provider errors and route answers;
- `KeywordTable`: the ordered `includes` chains, written as rule lists in which the first matching rule wins.

State that the source updates through React setters, or in place, is held in
classes:

- `ChatSession`;
- `ReadableStream` and `AbortSignal`;
- `Profile`;
- `QuickSettingsState`;
- `ModelSelectState`.

Their methods are proved against specification functions. Those functions in
turn carry the lemmas about what the source promises.

Conventions:

- JavaScript's falsy values are explicit:
  - an empty string stands for a missing or empty message or provider;
  - status `0` stands for a missing `error.status`;
  - `None` stands for `undefined`;
  - `Null` stands for a SQL `null`.
- A JSON body that does not parse, and a rejected read, are constructors of their own.
- The following are function-typed parameters:
  - the text decoder;
  - `JSON.parse(line).message.content`;
  - the data-URL helpers.
- The following are plain parameters:
  - the environment;
  - the Supabase lookup;
  - the database lookups of an assistant;
  - the current time;
  - `NODE_ENV`;
  - the new message ids.

Some of the code's behaviour is easy to misread, and the model follows the code as written:

- The 429 toast rounds minutes up (`Math.ceil`), so 90 seconds read as
  "2 minutes and 30 seconds" (`ChatHelpers.NinetySeconds`).
- The rollback after a failed request always drops the last two messages,
  even for a regeneration, which added none (`ChatHelpers.RollbackAfterRegeneration`).
- A local (Ollama) chunk with one malformed JSON line contributes nothing at
  all, because the whole `reduce` throws (`ChatHelpers.MalformedChunkIgnored`).
- A status 400 reaching the OpenAI route is reported as "message too long"
  once no key problem or rate limit is mentioned; those tests come first
  (`OpenAIRoute.BadRequestIsTooLong`).

## Model

| member | source | states |
|---|---|---|
| ChatHelpers.ValidateChatSettings | components/chat/chat-helpers/index.ts:26-52 | the turn passes exactly when settings, model, profile and workspace are present and the message is non-empty; otherwise the message of the first failing check, one clause per check in the source's order |
| ChatHelpers.AssistantIdOf | components/chat/chat-helpers/index.ts:111 | the assistant id is kept only when an assistant with a non-empty id is selected |
| ChatHelpers.WithLastContentShape | components/chat/chat-helpers/index.ts:127-130 | emptying the last message for a regeneration keeps the length, every earlier message and the numbering, and changes only the last content |
| ChatHelpers.AppendTempShape | components/chat/chat-helpers/index.ts:91-137 | an append turn adds exactly a user message numbered `len` with the typed content and an empty assistant message numbered `len + 1`; a numbered list stays numbered |
| ChatHelpers.ChatSession.CreateTempMessages | components/chat/chat-helpers/index.ts:82-145 | the list becomes the regeneration form or the append form; regenerating on an empty list fails with the TypeError and leaves the list as it was; nothing else in the session changes |
| ChatHelpers.DropLast | components/chat/chat-helpers/index.ts:418 | `slice(0, -2)` keeps a prefix whose length is two less, or nothing |
| ChatHelpers.RollbackUndoesAppend | components/chat/chat-helpers/index.ts:417-421 | rolling back a failed append turn restores the message list exactly |
| ChatHelpers.RollbackAfterRegeneration | components/chat/chat-helpers/index.ts:417-421 | rolling back a failed regeneration loses the last two messages although the regeneration added none |
| ChatHelpers.WaitText | components/chat/chat-helpers/index.ts:319-321 | definition of the 429 toast text for a `Retry-After` wait; see `ChatHelpers.WaitBreakdown` and `ChatHelpers.NinetySeconds` |
| ChatHelpers.WaitBreakdown | components/chat/chat-helpers/index.ts:319-321 | the minutes and seconds of the 429 text equal the wait when it is whole minutes, and exceed it by exactly one minute otherwise (ceiling plus remainder) |
| ChatHelpers.NinetySeconds | components/chat/chat-helpers/index.ts:319-321 | a `Retry-After` of 90 is spelled "90 seconds (2 minutes and 30 seconds)" |
| ChatHelpers.NotFoundToast | components/chat/chat-helpers/index.ts:267-305 | a local model's 404 names Ollama; for a hosted JSON body the text of the first endpoint the URL mentions (OpenAI, Anthropic, custom), or the generic text with the URL when it mentions none, the body's message never shown; for an unreadable body the URL's last segment (or `API endpoint`) with "not found (404)" |
| ChatHelpers.UrlTail | components/chat/chat-helpers/index.ts:299 | `url.split("/").pop()` is the URL's suffix after its last `/`: it holds no `/` and is the whole URL or follows a `/` |
| ChatHelpers.UrlTailOfPlainName | components/chat/chat-helpers/index.ts:299 | a URL without a `/` is its own last segment |
| ChatHelpers.RateLimitToast | components/chat/chat-helpers/index.ts:306-357 | a JSON body's message (or "Rate limit exceeded") is shown unless it mentions `rate limit` or `429`; one that does becomes the wait text with a wait and the "1-2 minutes" text without; without a readable body the wait text or the "wait a moment" text |
| ChatHelpers.BadRequestToast | components/chat/chat-helpers/index.ts:358-391 | for a JSON body, the text of the first table rule the lower-cased message (or its default) mentions, or the message itself when it mentions none; for an unreadable body the fixed "Invalid request (400)" text |
| ChatHelpers.StatusToast | components/chat/chat-helpers/index.ts:263-415 | 404, 429 and 400 use their own toasts; 401 shows the body message or "Invalid API key"; 500, 502 and 503 the body message or "Server error (N)"; any other status the body message or "Error: N" |
| ChatHelpers.RateLimitRewrite | components/chat/chat-helpers/index.ts:308-325 | a 429 message mentioning `rate limit` or `429` anywhere becomes the wait text with a wait and the "1-2 minutes" text without |
| ChatHelpers.RateLimitDefaultKept | components/chat/chat-helpers/index.ts:310-325 | a 429 body without a message yields "Rate limit exceeded", whatever the wait |
| ChatHelpers.BadRequestUnmatchedKept | components/chat/chat-helpers/index.ts:361-378 | a 400 message matching no keyword of the table is shown as is |
| ChatHelpers.BadRequestTokenFirst | components/chat/chat-helpers/index.ts:365-368 | any 400 message that mentions `token` is reported as too long, whatever else it says |
| ChatHelpers.HostedChatTarget | components/chat/chat-helpers/index.ts:204-225 | OpenAI with Azure goes to `azure`; the endpoint is `/api/chat/<provider>`; only a custom model passes its hosted id |
| ChatHelpers.TempMessages | components/chat/chat-helpers/index.ts:82-145 | the list `createTempMessages` shows: as long as before on a regeneration, two longer on an append; see `ChatHelpers.WithLastContentShape` and `ChatHelpers.AppendTempShape` |
| ChatHelpers.ResponseTargetId | components/chat/chat-helpers/index.ts:236-241 | definition of the id the hosted answer is written under; see `ChatHelpers.ResponseLandsInLastMessage` |
| ChatHelpers.ResponseLandsInLastMessage | components/chat/chat-helpers/index.ts:236-241 | in both modes the target id is the id of the last message `createTempMessages` shows; updating with it fills that message with the text and leaves messages with other ids alone |
| ChatHelpers.ReduceLines | components/chat/chat-helpers/index.ts:462-468 | definition of the line reduction, `None` when `JSON.parse` throws; see `ChatHelpers.ReduceLinesSpec` |
| ChatHelpers.ReduceLinesSpec | components/chat/chat-helpers/index.ts:462-468 | the line reduction fails exactly when some line does not parse, and otherwise appends all lines' contents in order |
| ChatHelpers.ChunkContribution | components/chat/chat-helpers/index.ts:456-468 | definition of what one chunk adds, `None` when it throws; see `ChatHelpers.HostedFullText`, `ChatHelpers.LinesChunk` and `ChatHelpers.BlankChunkDropped` |
| ChatHelpers.BlankChunkDropped | components/chat/chat-helpers/index.ts:455-472 | a local chunk of whitespace trims to one empty line, which does not parse, so it adds nothing |
| ChatHelpers.LinesChunk | components/chat/chat-helpers/index.ts:455-469 | a local chunk that joins parsed lines contributes their contents in order |
| ChatHelpers.FullText | components/chat/chat-helpers/index.ts:455-472 | definition of `fullText` after a run of chunks, a throwing chunk adding nothing; see `ChatHelpers.FullTextGrows` and `ChatHelpers.MalformedChunkIgnored` |
| ChatHelpers.FullTextGrows | components/chat/chat-helpers/index.ts:469 | the accumulated text only grows, by appending |
| ChatHelpers.MalformedChunkIgnored | components/chat/chat-helpers/index.ts:455-472 | a chunk whose parsing throws leaves the accumulated text unchanged |
| ChatHelpers.HostedFullText | components/chat/chat-helpers/index.ts:456-457 | hosted chunks are concatenated verbatim |
| ChatHelpers.UpdateTarget | components/chat/chat-helpers/index.ts:474-490 | every message with the target id gets the new content and keeps everything else; other messages are untouched |
| ChatHelpers.UpdateTargetOverwrites | components/chat/chat-helpers/index.ts:474-490 | a later update overwrites an earlier one, and the update keeps the numbering |
| ChatHelpers.RethrownMessage | components/chat/chat-helpers/index.ts:496-505 | an error that mentions `locked` is replaced by the "already in use" text; any other error is rethrown unchanged |
| ChatHelpers.ChatSession.FetchChatResponse | components/chat/chat-helpers/index.ts:263-424 | a 2xx response passes untouched; any other response yields its toast, stops generating, drops two messages and fails with the status |
| ChatHelpers.ChatSession.ProcessResponse | components/chat/chat-helpers/index.ts:427-506 | a null or locked body fails and changes nothing; otherwise the stream is consumed, the target message holds the accumulated text, and the result is that text or the reworded failure |
| ChatHelpers.ChatSession.ReplayChunks | components/chat/chat-helpers/index.ts:449-495 | after the callback has run over the chunks, the text is their accumulated contribution, written into the target, and the flags are set iff there was a chunk |
| ChatHelpers.NewItems | components/chat/chat-helpers/index.ts:652-654 | keeps exactly the retrieved items whose ids are not already known |
| ChatHelpers.NewItemsAppend | components/chat/chat-helpers/index.ts:652-654 | the `filter` keeps order and multiplicity: filtering a concatenation concatenates the filtered parts |
| ChatHelpers.NewItemsSingle | components/chat/chat-helpers/index.ts:652-654 | one retrieved item is kept exactly when its id is not known |
| ChatHelpers.MergeFileItems | components/chat/chat-helpers/index.ts:651-656 | the old items stay first and in order, followed by exactly the new items in retrieval order; every retrieved id ends up present |
| ChatHelpers.MergeFileItemsOrder | components/chat/chat-helpers/index.ts:651-656 | merging two retrievals' concatenation appends each one's new items in order, each as often as it was retrieved |
| ChatHelpers.MergeFileItemsIdempotent | components/chat/chat-helpers/index.ts:651-656 | merging the same retrieval twice adds nothing the second time |
| ChatHelpers.GuestAppendShape | components/chat/chat-helpers/index.ts:611-649 | a guest turn stores the user message numbered `len` and the assistant message numbered `len + 1`, which holds the generated text and the retrieved ids in order |
| ChatHelpers.ChatSession.HandleCreateMessagesGuest | components/chat/chat-helpers/index.ts:594-661 | a guest regeneration rewrites the last message and drops its file items; an append stores both messages and merges the file items; an empty regeneration fails |
| ConsumeStream.ReadableStream.GetReader | lib/consume-stream.ts:12 | claiming the stream locks it and changes nothing else |
| ConsumeStream.ReadableStream.Read | lib/consume-stream.ts:26 | a read takes the next step of the source, and reports `done` once the source is exhausted |
| ConsumeStream.ReadableStream.Cancel | lib/consume-stream.ts:15-22 | a cancel is counted and changes nothing else |
| ConsumeStream.ReadableStream.ReleaseLock | lib/consume-stream.ts:43-50 | releasing unlocks the stream and is counted |
| ConsumeStream.DeliveredInOrder | lib/consume-stream.ts:24-35 | the callback receives the decoded value of every chunk read that has a value, in order, up to the first `done` or error |
| ConsumeStream.OutcomeOfConsume | lib/consume-stream.ts:24-42 | the call throws the read's error exactly when the first non-chunk read is rejected and the signal has not been aborted by then |
| ConsumeStream.CancelAtMostOnce | lib/consume-stream.ts:15-22 | the once-only listener cancels at most once, never when already aborted, and exactly when the signal becomes aborted during the run |
| ConsumeStream.ConsumeOneRead | lib/consume-stream.ts:25-34 | one pass of the loop, including an exhausted source read as `done` |
| ConsumeStream.ChunkAdvance | lib/consume-stream.ts:32-34 | a chunk read moves its decoded value and its cancel request into what has happened |
| ConsumeStream.ReadOnce | lib/consume-stream.ts:15-26 | one read; an abort firing during it marks the signal and, while the listener is registered, cancels the reader |
| ConsumeStream.ReadLoop | lib/consume-stream.ts:24-42 | the loop's outcome, delivered texts, signal, cancels and remaining source are those of the specification run |
| ConsumeStream.ConsumeReadableStream | lib/consume-stream.ts:1-51 | a locked stream fails at once and is untouched; otherwise the outcome, delivered texts and final state are those of the specification run, and the reader is released exactly once |
| KeywordTable.FirstMatchSpec | app/api/chat/anthropic/route.ts:117-129 | the answer is the text of the earliest matching rule, and nothing exactly when no rule matches |
| KeywordTable.FirstMatchAt | app/api/chat/anthropic/route.ts:117-129 | the rule at position `i` decides when it matches and no earlier rule does |
| KeywordTable.FirstMatchDecides | app/api/chat/anthropic/route.ts:117-129 | rule by rule: the rule that matches with no earlier match gives the answer, and no answer comes when no rule matches |
| ChatTypes.StatusOr500 | app/api/chat/openai/route.ts:52 | a present status is kept, a missing one becomes 500 |
| ChatTypes.MessageOr | app/api/chat/openai/route.ts:51 | the message is kept when non-empty, else the fallback |
| ChatTypes.ErrorResponse | app/api/chat/openai/route.ts:79-88 | the JSON answer carries the classified status and message, and in development exactly the raw `error.message` |
| ChatTypes.RouteWaitMinutes | app/api/chat/openai/route.ts:64-67 | the routes' rounded-up minutes cover the wait by less than one minute more, and the minute word is plural exactly when the wait exceeds 60 seconds |
| ServerChatHelpers.EnvOrNull | lib/server/server-chat-helpers.ts:24-25 | a set variable gives its string, an unset or empty one `null` |
| ServerChatHelpers.Column | lib/server/server-chat-helpers.ts:125-142 | no key override targets the identity columns |
| ServerChatHelpers.MappingTargetsDistinct | lib/server/server-chat-helpers.ts:125-142 | the fourteen overrides target fourteen different columns |
| ServerChatHelpers.WithEnvKeysSpec | lib/server/server-chat-helpers.ts:144-148 | after the overrides, a column no override names is unchanged; a named column holds the variable's value when it is set and its old value otherwise |
| ServerChatHelpers.AddApiKeysToProfile | lib/server/server-chat-helpers.ts:124-151 | the loop updates the record in place to the specified override result and returns the same record |
| ServerChatHelpers.GuestFields | lib/server/server-chat-helpers.ts:14-42 | the guest record is `guest`/`guest`, and its OpenAI and Anthropic keys are the variables or `null` |
| ServerChatHelpers.GetServerProfile | lib/server/server-chat-helpers.ts:6-121 | a fresh profile: the Supabase record when Supabase is configured and the lookup succeeds, otherwise the guest record, in both cases with the overrides applied |
| ServerChatHelpers.GuestProfileKeys | lib/server/server-chat-helpers.ts:6-46 | the guest profile keeps its `guest` ids, and its OpenAI and Anthropic keys are exactly the variables or `null` |
| ServerChatHelpers.OverridesKeepIdentity | lib/server/server-chat-helpers.ts:144-148 | the overrides never change `id` or `user_id` |
| ServerChatHelpers.OverrideOfEnvValue | lib/server/server-chat-helpers.ts:144-148 | a key column already holding the variable-or-null value keeps it |
| ServerChatHelpers.CheckApiKey | lib/server/server-chat-helpers.ts:153-157 | the guard fails exactly on `null` and `""` (an undefined key passes), with the error "`<name>` API Key not found" |
| ServerChatHelpers.CheckFailureMentionsNotFound | lib/server/server-chat-helpers.ts:155 | the guard's error always contains `api key not found` once lower-cased |
| OpenAIRoute.MaxTokens | app/api/chat/openai/route.ts:31-35 | `max_tokens` is 4096 exactly for `gpt-4-vision-preview` and `gpt-4o`, `null` otherwise |
| OpenAIRoute.Classify | app/api/chat/openai/route.ts:51-77 | status 401, 429 and 400 each hold exactly when its branch is the first to match; 401 says not-found-or-invalid for such a mention and "incorrect" otherwise, 429 the wait text, 400 "message too long"; any other status keeps the code and message, or gets the retry text when there is no message |
| OpenAIRoute.Post | app/api/chat/openai/route.ts:17-88 | the route streams iff the key passes the guard and the call streams, with the model, messages, temperature, token limit, key and organization; a refused key or a thrown call is answered with the classifier's status and message, the raw message only in development |
| OpenAIRoute.MissingKeyIs401 | app/api/chat/openai/route.ts:20 | a missing OpenAI key is answered 401 with the not-found-or-invalid text |
| OpenAIRoute.KeyNotFoundFirst | app/api/chat/openai/route.ts:55-57 | a message reporting a missing key is answered as such whatever its status |
| OpenAIRoute.BadRequestIsTooLong | app/api/chat/openai/route.ts:72-74 | a status 400 without key or rate-limit mentions is always "message too long" |
| AnthropicRoute.ReshapePart | app/api/chat/anthropic/route.ts:34-53 | a string becomes a text part; an image part is produced exactly for an `image_url` part with a non-empty url; anything else is kept |
| AnthropicRoute.ReshapeMessage | app/api/chat/anthropic/route.ts:26-54 | mapping fails exactly on a content that is neither string nor list; otherwise the role and the number of parts are kept and each part is reshaped |
| AnthropicRoute.ReshapeAll | app/api/chat/anthropic/route.ts:25-56 | the map succeeds exactly when no message lacks parts, and is then pointwise |
| AnthropicRoute.AfterSystem | app/api/chat/anthropic/route.ts:23 | `slice(1)` drops exactly the first message |
| AnthropicRoute.ReshapeDropsSystem | app/api/chat/anthropic/route.ts:23-56 | when every message after the first has parts, the provider gets each of them, one for one, with roles and part counts kept, whatever the first message is |
| AnthropicRoute.InnerClassify | app/api/chat/anthropic/route.ts:95-131 | status 401, 429 and 400 each hold exactly when its branch is the first to match; 401 says the key is invalid, 429 gives the wait text, 400 the first nested-table text the message mentions or the message itself; any other error keeps its status and message |
| AnthropicRoute.InnerKeyMentionFirst | app/api/chat/anthropic/route.ts:98-100 | a message mentioning `api key` is an invalid key whatever its status |
| AnthropicRoute.InnerBadRequestKeepsMessage | app/api/chat/anthropic/route.ts:115-130 | a 400 whose message matches no keyword keeps the message |
| AnthropicRoute.InnerTokenIsTooLong | app/api/chat/anthropic/route.ts:112-120 | a message mentioning `token` is "message too long" whatever its status, unless a key, a rate limit, 401 or 429 came first |
| AnthropicRoute.OuterClassify | app/api/chat/anthropic/route.ts:153-164 | 401 exactly for a not-found or invalid key mention (not-found-or-invalid text) or status 401 ("incorrect" text); otherwise the status with the message or the retry text |
| AnthropicRoute.CallResponse | app/api/chat/anthropic/route.ts:62-143 | streams exactly when there is a first message, the model has a token limit and the call streams, with the first message's content as system prompt and the model's limit; an empty list and an unknown model are answered by the inner chain with the TypeError on `content` and on `MAX_TOKEN_OUTPUT_LENGTH`; a stream that cannot be wrapped gives 500 with the parse-failure text and no `error`; a thrown call is answered by the inner chain |
| AnthropicRoute.OuterResponse | app/api/chat/anthropic/route.ts:166-175 | the outer catch answers with the outer chain's status and message, and the raw message exactly in development |
| AnthropicRoute.InnerResponse | app/api/chat/anthropic/route.ts:133-142 | the inner catch answers with the inner chain's status and message, and the raw message exactly in development |
| AnthropicRoute.Post | app/api/chat/anthropic/route.ts:11-177 | the route streams iff the key passes, the reshaping succeeds, there is a first message, the model is known and the call streams; the request holds the reshaped messages, system prompt, limit, model and temperature |
| AnthropicRoute.PostBranches | app/api/chat/anthropic/route.ts:18-177 | a refused key goes to the outer chain with the key check's message; a content without parts goes to the outer chain with the TypeError on `map`; otherwise the answer is the provider call's (`CallResponse`) |
| AnthropicRoute.MissingKeyIs401 | app/api/chat/anthropic/route.ts:21 | a missing Anthropic key is answered 401 with the not-found-or-invalid text |
| AnthropicRoute.ThrownCallIsInnerClassified | app/api/chat/anthropic/route.ts:86-143 | a thrown provider call is answered with the inner chain's status and message |
| QuickSettings.CheckIfModified | components/chat/quick-settings.tsx:195-224 | never modified with nothing selected; otherwise modified exactly when one of the six compared fields of the selected preset (or, without one, assistant) differs |
| QuickSettings.SettingsFromItem | components/chat/quick-settings.tsx:174-188 | an item's model and prompt are applied, with `??` defaults 0.7, 4096, false, false and `||` default `openai` |
| QuickSettings.SettingsFromWorkspace | components/chat/quick-settings.tsx:156-166 | removal restores the workspace defaults, with `gpt-3.5-turbo` for a missing model |
| QuickSettings.ZeroSettingsKept | components/chat/quick-settings.tsx:179-180 | a temperature or context length of 0 is applied as 0 |
| QuickSettings.AppliedItemUnmodified | components/chat/quick-settings.tsx:174-224 | right after an item with all compared columns set is applied, it does not read as modified |
| QuickSettings.NullColumnReadsModified | components/chat/quick-settings.tsx:199-207 | a selected preset with a null compared column always reads as modified |
| QuickSettings.Records | components/chat/quick-settings.tsx:65-66 | a context value that is not an array lists nothing |
| QuickSettings.RecordsOf | components/chat/quick-settings.tsx:232-246 | exactly the entries that are objects are listed |
| QuickSettings.RecordsOfAppend | components/chat/quick-settings.tsx:232-246 | records are listed in entry order, each once: the records of a concatenation are those of its parts, concatenated |
| QuickSettings.RecordsOfSingle | components/chat/quick-settings.tsx:232-246 | a single entry lists its record exactly when it is an object |
| QuickSettings.PushRecords | components/chat/quick-settings.tsx:232-236 | one `forEach` pushes every record of the listing, tagged, after what is there |
| QuickSettings.BuildItems | components/chat/quick-settings.tsx:229-249 | the item list is the tagged preset records followed by the tagged assistant records |
| QuickSettings.ItemsPresetsFirst | components/chat/quick-settings.tsx:229-249 | the list begins with exactly the presets, and everything after them is tagged as an assistant |
| QuickSettings.Options | components/chat/quick-settings.tsx:352-369 | an item is offered iff it is listed, has a non-empty string name containing the search (both lower-cased), is neither selected entry and has an id |
| QuickSettings.OptionsAppend | components/chat/quick-settings.tsx:352-369 | the `filter` keeps list order and multiplicity: the options of a concatenation are those of its parts, concatenated |
| QuickSettings.OptionsSingle | components/chat/quick-settings.tsx:352-369 | a single item is offered exactly when it passes the search and selection filter and has an id |
| QuickSettings.EmptySearchOffersAll | components/chat/quick-settings.tsx:352-369 | with an empty search and nothing selected, every named item with an id is offered |
| QuickSettings.SelectedNotOffered | components/chat/quick-settings.tsx:360-361 | the selected preset is never offered |
| QuickSettings.QuickSettingsState.OnOpenChange | components/chat/quick-settings.tsx:264-271 | opening or closing sets the flag, clears the search and changes nothing else |
| QuickSettings.CollectedFiles | components/chat/quick-settings.tsx:106-117 | definition of the assistant's files followed by each readable collection's files; see `QuickSettings.QuickSettingsState.LoadAssistant` |
| QuickSettings.QuickSettingsState.LoadAssistant | components/chat/quick-settings.tsx:104-142 | when every lookup succeeds, the tools and the assistant's files followed by each readable collection's files are set, and the files display opens if any; a failed lookup clears both |
| QuickSettings.QuickSettingsState.HandleSelectQuickSetting | components/chat/quick-settings.tsx:89-193 | an assistant pick selects it and loads its data unless the profile is a guest; a preset pick selects it and clears the rest; removal clears all and restores workspace defaults; a picked item with a model sets the chat settings |
| ModelSelectButton.AllModels | components/chat/model-select-button.tsx:53-65 | custom models come first, as `custom`-provider models without image input; then the hosted, local and OpenRouter models unchanged; a missing list adds nothing |
| ModelSelectButton.WithProvider | components/chat/model-select-button.tsx:67-78 | definition of a provider's group, never longer than the list; see `ModelSelectButton.WithProviderMembers` |
| ModelSelectButton.WithProviderMembers | components/chat/model-select-button.tsx:67-78 | a group holds exactly the models of its provider |
| ModelSelectButton.WithProviderAppend | components/chat/model-select-button.tsx:67-78 | a group keeps list order and multiplicity: the group of a concatenation is the groups of its parts, concatenated |
| ModelSelectButton.WithProviderSingle | components/chat/model-select-button.tsx:67-78 | a single model is in its own provider's group and no other |
| ModelSelectButton.Providers | components/chat/model-select-button.tsx:67-78 | definition of the groups' keys in creation order; see `ModelSelectButton.ProvidersMembers` and `ModelSelectButton.ProvidersDistinct` |
| ModelSelectButton.ProvidersMembers | components/chat/model-select-button.tsx:67-78 | the groups' keys are exactly the non-empty providers present |
| ModelSelectButton.ProvidersDistinct | components/chat/model-select-button.tsx:67-78 | no provider is a key twice |
| ModelSelectButton.NoEmptyProvider | components/chat/model-select-button.tsx:69-70 | a model without a provider never creates a group |
| ModelSelectButton.GroupModels | components/chat/model-select-button.tsx:67-78 | the reduce builds a group for exactly each provider present, in first-appearance order, holding that provider's models in list order |
| ModelSelectButton.GroupsPartition | components/chat/model-select-button.tsx:67-78 | the groups' sizes add up to the number of models with a provider: each such model is in exactly one group |
| ModelSelectButton.FindModel | components/chat/model-select-button.tsx:80-82 | the selected model is the first with the chat's model id, and there is none exactly when no model has that id |
| ModelSelectButton.Visible | components/chat/model-select-button.tsx:148-157 | a group shows exactly its models with a provider whose lower-cased name contains the lower-cased search |
| ModelSelectButton.Section | components/chat/model-select-button.tsx:148-168 | a provider's section is hidden exactly when nothing passes the search; otherwise it lists the passing models that have an id |
| ModelSelectButton.VisibleAppend | components/chat/model-select-button.tsx:148-157 | the search keeps group order and multiplicity: the shown models of a concatenation are those of its parts, concatenated |
| ModelSelectButton.WithIdAppend | components/chat/model-select-button.tsx:167-168 | the listed models keep order and multiplicity likewise |
| ModelSelectButton.SectionOrder | components/chat/model-select-button.tsx:148-168 | a shown section lists the passing models with an id in group order: those of the first part of the group, then those of the second |
| ModelSelectButton.SectionSingle | components/chat/model-select-button.tsx:148-168 | a single model is shown exactly when it has a provider and its lower-cased name contains the lower-cased search, and listed when it also has an id |
| ModelSelectButton.EmptySearchShowsGroup | components/chat/model-select-button.tsx:148-157 | an empty search shows a group in full |
| ModelSelectButton.ModelSelectState.SelectModel | components/chat/model-select-button.tsx:84-96 | picking a model changes only the chat's model and closes the menu |
| ModelSelectButton.ModelSelectState.OnOpenChange | components/chat/model-select-button.tsx:101-105 | opening or closing sets the flag and clears the search |
| ModelSelectButton.PickedModelIsFound | components/chat/model-select-button.tsx:80-96 | after a listed model is picked, the selected model resolves to a model with that id |

## Left out

- Network, database, Supabase authentication, React rendering and toasts' durations and descriptions: each call's result is a parameter, and each toast is the text it shows.
- `handleRetrieval`, `handleLocalChat`, `handleCreateChat` and the database branch of `handleCreateMessages`: they only pass data to storage and to other services.
- The actual bytes and images of a turn (uploads, base64 conversion).
- Timestamps and `uuidv4()`: the ids of new messages and the current time are parameters.
- `toLowerCase` is modelled on ASCII letters only; JavaScript lower-cases all of Unicode.
- `parseInt` of a `Retry-After` header that is not a non-negative number: `NaN` in the text, or a negative wait such as `parseInt("-5")`. The header is modelled as a natural number when present and non-empty.
- The V8 texts of the TypeErrors that the routes catch (reading `map`, `content` or `MAX_TOKEN_OUTPUT_LENGTH` of `undefined`) are written as constants. `InContent.NoParts` stands for every content without a `map`: absent, `null`, or an object that is not a list. All of them get the `undefined` text. V8 says "Cannot read properties of null (reading 'map')" for `null` and "messageContent.map is not a function" for an object; the outer chain passes that text on as the 500 message, so those two answers differ from the model's.
- `VALID_ENV_KEYS` (types/valid-keys) is not part of this model: each key variable is assumed to be named as its constant is.
- The `TextDecoder` runs with `stream: true`, so it holds back a multi-byte UTF-8 sequence split across two chunks and emits it with the next one. The model decodes each chunk on its own, through the decoder parameter, and does not carry bytes between chunks.
- Errors thrown by `releaseLock` are swallowed by the source and do not occur in the model.
- The rejection of `reader.cancel()` is not modelled: `cancel` returns a promise, so its rejection escapes the listener's synchronous `try`/`catch` and goes unhandled. The `once` listener is also never removed, so an abort after `consumeReadableStream` has returned cancels a reader already released; the model ends the listener with the call.
- ChatHelpers.ResponseLandsInLastMessage: assumes the caller passes `handleHostedChat` the same list it passed `createTempMessages`; the caller is not part of this model.
- ChatHelpers.ChatSession.CreateTempMessages: writes the emptied content into a copy; the source empties the caller's message object in place, and that aliasing is not modelled.
- ChatHelpers.ChatSession.ProcessResponse: applies the callback's effects after the reads rather than between them; only the session state is touched by the callback, so the final state is the same.
- ChatTypes.ErrorResponse: an error without a message carries `error: ""` in development. That is what a thrown `Error` built without a message gives. A thrown value whose `message` is `undefined` would have the field left out by `JSON.stringify`; the model does not tell the two apart.
- The mapping of an assistant's files to chat files (`name: file.name || ""`, `type: file.type || ""`, `file: null`): the lookups are modelled as returning `ChatFile` values already in that shape. With an empty string standing for a missing name or type, the two defaults change nothing; the `file: null` field is not modelled.
- The outer `try`/`catch` of `handleSelectQuickSetting` and of the pickers' handlers: nothing inside the model throws there.
- QuickSettings.CheckIfModified: a preset's `prompt` that is `null` is modelled as the empty string, so it does not see a null prompt as different from `""`.
- ModelSelectButton.Visible: the `localeCompare` sort is modelled as the identity: all models of a group share its provider, and `Array.prototype.sort` is stable.
- Integer-like provider names, which `Object.entries` would list before the others, are not distinguished.
- The assistant image, model details and other presentation in both components.

=== FILE: anthropic_route.dfy ===
/** The Anthropic chat route: reshapes the client's messages into the
    provider's format (the first message becomes the system prompt), calls
    the provider, and turns whatever is thrown into a JSON error through two
    nested classifiers — the inner one around the provider call, the outer
    one around the whole handler. */
module AnthropicRoute {
  import opened Wrappers
  import opened Text
  import opened ChatTypes
  import opened KeywordTable
  import opened ServerChatHelpers

  /** One element of a client message's content list. */
  datatype InPart =
    | StringPart(text: string)
      /** An `image_url` part; `url` is `None` when the part has no url. */
    | ImageUrlPart(url: Option<string>)
      /** Any other object, kept as it is; `kind` is its `type`. */
    | OtherPart(kind: string)

  /** A client message's content: a string, a list of parts, or something
      else (absent, or an object without `map`). */
  datatype InContent = TextContent(text: string) | PartsContent(parts: seq<InPart>) | NoParts

  datatype InMessage = InMessage(role: string, content: InContent)

  /** A content part in the provider's format. */
  datatype OutPart =
    | TextPart(text: string)
    | ImagePart(mediaType: string, data: string)
    | Unchanged(part: InPart)

  datatype OutMessage = OutMessage(role: string, content: seq<OutPart>)

  /** What the route hands the provider when the call is made. */
  datatype AnthropicRequest = AnthropicRequest(
    model: string,
    messages: seq<OutMessage>,
    temperature: real,
    system: InContent,
    maxTokens: nat,
    apiKey: string)

  /** How the provider call ends: the stream is returned, the stream cannot
      be wrapped, or the call throws. */
  datatype CallOutcome = Streamed | StreamUnwrappable | Threw(error: ProviderError)

  // The runtime's messages for the three property reads on `undefined` the
  // handler can meet.
  const MapOfUndefined := "Cannot read properties of undefined (reading 'map')"
  const ContentOfUndefined := "Cannot read properties of undefined (reading 'content')"
  const LimitOfUndefined := "Cannot read properties of undefined (reading 'MAX_TOKEN_OUTPUT_LENGTH')"

  const ParseFailure := "An error occurred while parsing the Anthropic API response"
  const CallFailedDefault := "An error occurred while calling the Anthropic API"
  const InvalidKey := "Anthropic API Key is invalid. Please check your API key in settings."
  const InvalidRequest400 := "Invalid request (400). Please check your message and try again."
  const KeyNotFoundOrInvalid := "Anthropic API Key not found or invalid. Please check your API key in settings."
  const KeyIncorrect := "Anthropic API Key is incorrect. Please fix it in your profile settings."

  // ---------------------------------------------------------------------
  // Reshaping

  /** The parts a content is mapped over: a string is a one-part list. */
  function PartsOf(c: InContent): seq<InPart>
    requires !c.NoParts?
  {
    if c.TextContent? then [StringPart(c.text)] else c.parts
  }

  /** One part in the provider's format: a string becomes a text part, an
      image url that is present and non-empty a base64 image part, anything
      else stays. The data-URL helpers are parameters. */
  function ReshapePart(p: InPart, mediaTypeOf: string -> string, base64Of: string -> string): (r: OutPart)
    ensures p.StringPart? ==> r == TextPart(p.text)
    ensures r.ImagePart? <==> p.ImageUrlPart? && p.url.Some? && p.url.value != ""
    ensures r.Unchanged? ==> r.part == p
  {
    match p
    case StringPart(t) => TextPart(t)
    case ImageUrlPart(url) =>
      if url.Some? && url.value != "" then ImagePart(mediaTypeOf(url.value), base64Of(url.value))
      else Unchanged(p)
    case OtherPart(_) => Unchanged(p)
  }

  /** One message in the provider's format; mapping over a content that is
      not a string or a list throws. */
  function ReshapeMessage(m: InMessage, mediaTypeOf: string -> string, base64Of: string -> string)
    : (r: Result<OutMessage, string>)
    ensures r.Failure? <==> m.content.NoParts?
    ensures r.Failure? ==> r.error == MapOfUndefined
    ensures r.Success? ==> r.value.role == m.role && |r.value.content| == |PartsOf(m.content)|
    ensures r.Success? ==> forall j :: 0 <= j < |r.value.content| ==>
      r.value.content[j] == ReshapePart(PartsOf(m.content)[j], mediaTypeOf, base64Of)
  {
    if m.content.NoParts? then Failure(MapOfUndefined)
    else
      var parts := PartsOf(m.content);
      Success(OutMessage(m.role, seq(|parts|, j requires 0 <= j < |parts| => ReshapePart(parts[j], mediaTypeOf, base64Of))))
  }

  /** The messages mapped in order; the first that throws ends the map. */
  function ReshapeAll(ms: seq<InMessage>, mediaTypeOf: string -> string, base64Of: string -> string)
    : (r: Result<seq<OutMessage>, string>)
    ensures r.Success? <==> forall i :: 0 <= i < |ms| ==> !ms[i].content.NoParts?
    ensures r.Failure? ==> r.error == MapOfUndefined
    ensures r.Success? ==> |r.value| == |ms|
    ensures r.Success? ==>
      forall i :: 0 <= i < |ms| ==> Success(r.value[i]) == ReshapeMessage(ms[i], mediaTypeOf, base64Of)
  {
    if ms == [] then Success([])
    else
      match ReshapeMessage(ms[0], mediaTypeOf, base64Of)
      case Failure(e) => Failure(e)
      case Success(head) =>
        match ReshapeAll(ms[1..], mediaTypeOf, base64Of)
        case Failure(e) => Failure(e)
        case Success(tail) => Success([head] + tail)
  }

  /** `messages.slice(1)`: every message but the first; nothing for an empty list. */
  function AfterSystem(messages: seq<InMessage>): (r: seq<InMessage>)
    ensures |messages| > 0 ==> r == messages[1..]
    ensures |messages| == 0 ==> r == []
  {
    if messages == [] then [] else messages[1..]
  }

  /** The provider receives every message but the first, one for one, each
      keeping its role and its number of parts; a string content becomes a
      single text part. */
  lemma ReshapeDropsSystem(messages: seq<InMessage>, mediaTypeOf: string -> string, base64Of: string -> string)
    requires |messages| > 0
    requires forall i :: 1 <= i < |messages| ==> !messages[i].content.NoParts?
    ensures var r := ReshapeAll(AfterSystem(messages), mediaTypeOf, base64Of);
      && r.Success?
      && |r.value| == |messages| - 1
      && forall i :: 1 <= i < |messages| ==>
        && r.value[i - 1].role == messages[i].role
        && |r.value[i - 1].content| == |PartsOf(messages[i].content)|
        && (messages[i].content.TextContent? ==> r.value[i - 1].content == [TextPart(messages[i].content.text)])
  {
    var rest := AfterSystem(messages);
    var r := ReshapeAll(rest, mediaTypeOf, base64Of);
    forall i | 1 <= i < |messages|
      ensures r.value[i - 1].role == messages[i].role
      ensures |r.value[i - 1].content| == |PartsOf(messages[i].content)|
      ensures messages[i].content.TextContent? ==> r.value[i - 1].content == [TextPart(messages[i].content.text)]
    {
      assert rest[i - 1] == messages[i];
      var m := ReshapeMessage(rest[i - 1], mediaTypeOf, base64Of);
      assert Success(r.value[i - 1]) == m;
    }
  }

  // ---------------------------------------------------------------------
  // The inner classifier, around the provider call

  const AuthKeywords := ["api key", "authentication"]
  const TooLongKeywords := ["context", "token", "too long"]

  /** The first-match table inside the 400 branch. */
  const BadRequestTable: seq<Rule> := [
    Rule(TooLongKeywords, MessageTooLong),
    Rule(["invalid", "format"], "Invalid request format. Please check your message and try again."),
    Rule(["model", "not found"], "Model not available or invalid. Please select a different model.")
  ]

  /** The inner error chain: invalid key first, then rate limiting, then a
      bad request, each recognised by a keyword of the lower-cased message
      or by its status; any other error keeps its status (or 500) and its
      message (or the default). */
  function InnerClassify(e: ProviderError): (c: Classified)
    ensures var lowered := ToLower(MessageOr(e.message, CallFailedDefault));
      var code := StatusOr500(e.status);
      && (c.code == 401 <==> AnyKeyword(AuthKeywords, lowered) || code == 401)
      && (c.code == 401 ==> c.message == InvalidKey)
      && (c.code == 429 ==> c.message == RouteRateLimitText(e.retryAfter))
      && (c.code == 400 ==>
            && (forall i :: Decides(BadRequestTable, lowered, i) ==> c.message == BadRequestTable[i].text)
            && (NoRuleMatches(BadRequestTable, lowered) ==> c.message == MessageOr(e.message, CallFailedDefault)))
      && (c.code == 429 <==>
            !(AnyKeyword(AuthKeywords, lowered) || code == 401) && (Contains(lowered, "rate limit") || code == 429))
      && (c.code == 400 <==>
            && !(AnyKeyword(AuthKeywords, lowered) || code == 401)
            && !(Contains(lowered, "rate limit") || code == 429)
            && (AnyKeyword(TooLongKeywords, lowered) || code == 400))
      && (c.code !in {400, 401, 429} ==> c == Classified(code, MessageOr(e.message, CallFailedDefault)))
    ensures c.message != ""
  {
    var message := MessageOr(e.message, CallFailedDefault);
    var code := StatusOr500(e.status);
    var lowered := ToLower(message);
    if AnyKeyword(AuthKeywords, lowered) || code == 401 then Classified(401, InvalidKey)
    else if Contains(lowered, "rate limit") || code == 429 then Classified(429, RouteRateLimitText(e.retryAfter))
    else if AnyKeyword(TooLongKeywords, lowered) || code == 400 then
      FirstMatchDecides(BadRequestTable, lowered);
      Classified(400, FirstMatch(BadRequestTable, lowered).GetOr(MessageOr(message, InvalidRequest400)))
    else Classified(code, message)
  }

  /** A message that mentions an API key is an invalid key, whatever the
      status and whatever else it mentions: that test comes first. */
  lemma InnerKeyMentionFirst(a: string, b: string, status: nat, retryAfter: Option<nat>)
    ensures InnerClassify(ProviderError(a + "api key" + b, status, retryAfter)) == Classified(401, InvalidKey)
  {
    var m := a + "api key" + b;
    LoweredMention(a, "api key", b);
    assert MessageOr(m, CallFailedDefault) == m;
    assert AnyKeyword(AuthKeywords, ToLower(m));
    assert InnerClassify(ProviderError(m, status, retryAfter)).code == 401;
  }

  /** A status 400 whose message mentions none of the keywords is answered
      with the message itself; the table's fallback text is never needed,
      since the message is never empty there. */
  lemma InnerBadRequestKeepsMessage(m: string, retryAfter: Option<nat>)
    requires m != ""
    requires !AnyKeyword(AuthKeywords, ToLower(m)) && !Contains(ToLower(m), "rate limit")
    requires forall i :: 0 <= i < |BadRequestTable| ==> !Matches(BadRequestTable[i], ToLower(m))
    ensures InnerClassify(ProviderError(m, 400, retryAfter)) == Classified(400, m)
  {
    FirstMatchSpec(BadRequestTable, ToLower(m));
  }

  /** A message that mentions a token is too long, whatever its status,
      once neither a key nor rate limiting is mentioned. */
  lemma InnerTokenIsTooLong(a: string, b: string, status: nat, retryAfter: Option<nat>)
    requires status != 401 && status != 429
    requires var lowered := ToLower(a + "token" + b);
      !AnyKeyword(AuthKeywords, lowered) && !Contains(lowered, "rate limit")
    ensures InnerClassify(ProviderError(a + "token" + b, status, retryAfter)) == Classified(400, MessageTooLong)
  {
    var m := a + "token" + b;
    LoweredMention(a, "token", b);
    assert AnyKeyword(TooLongKeywords, ToLower(m));
    assert Matches(BadRequestTable[0], ToLower(m)) by {
      assert BadRequestTable[0].keywords[1] == "token";
    }
    FirstMatchAt(BadRequestTable, ToLower(m), 0);
  }

  // ---------------------------------------------------------------------
  // The outer classifier, around the whole handler

  const NotFoundKeywords := ["api key not found", "invalid api key"]

  /** The outer error chain: a missing or invalid key, then status 401, then
      an error without a message; otherwise the status (or 500) and message. */
  function OuterClassify(e: ProviderError): (c: Classified)
    ensures var lowered := ToLower(MessageOr(e.message, UnexpectedServerError));
      && (c.code == 401 <==> AnyKeyword(NotFoundKeywords, lowered) || StatusOr500(e.status) == 401)
      && (AnyKeyword(NotFoundKeywords, lowered) ==> c.message == KeyNotFoundOrInvalid)
      && (c.code == 401 && !AnyKeyword(NotFoundKeywords, lowered) ==> c.message == KeyIncorrect)
      && (c.code != 401 ==>
            c.code == StatusOr500(e.status) && c.message == if e.message == "" then UnexpectedRetry else e.message)
  {
    var message := MessageOr(e.message, UnexpectedServerError);
    var code := StatusOr500(e.status);
    var lowered := ToLower(message);
    if AnyKeyword(NotFoundKeywords, lowered) then Classified(401, KeyNotFoundOrInvalid)
    else if code == 401 then Classified(401, KeyIncorrect)
    else if e.message == "" then Classified(code, UnexpectedRetry)
    else Classified(code, message)
  }

  // ---------------------------------------------------------------------
  // The handler

  /** The route's answer. `profile` is the record the key is read from,
      `limits` the output-token limit of each known model, `call` how the
      provider call ends, and the data-URL helpers are parameters. Errors
      thrown before the provider call (the key check, the reshaping) go to
      the outer chain; those from building the call or the call itself to
      the inner one. */
  function Post(settings: ChatSettings, messages: seq<InMessage>, profile: map<Field, Value>,
                limits: map<string, nat>, call: CallOutcome, isDevelopment: bool,
                mediaTypeOf: string -> string, base64Of: string -> string)
    : (r: RouteResponse<AnthropicRequest>)
    ensures r.Streaming? <==>
      && CheckApiKey(Lookup(profile, AnthropicApiKey), "Anthropic").Pass?
      && ReshapeAll(AfterSystem(messages), mediaTypeOf, base64Of).Success?
      && |messages| > 0 && settings.model in limits && call.Streamed?
    ensures r.Streaming? ==>
      && r.request.messages == ReshapeAll(AfterSystem(messages), mediaTypeOf, base64Of).value
      && r.request.system == messages[0].content
      && r.request.maxTokens == limits[settings.model]
      && r.request.model == settings.model && r.request.temperature == settings.temperature
  {
    var key := Lookup(profile, AnthropicApiKey);
    match CheckApiKey(key, "Anthropic")
    case Fail(m) => OuterResponse(ProviderError(m, 0, None), isDevelopment)
    case Pass =>
      match ReshapeAll(AfterSystem(messages), mediaTypeOf, base64Of)
      case Failure(m) => OuterResponse(ProviderError(m, 0, None), isDevelopment)
      case Success(formatted) => CallResponse(settings, messages, formatted, KeyText(key), limits, call, isDevelopment)
  }

  /** Which chain answers: a refused key and a failed reshaping go to the
      outer chain, everything else to the provider call's answer. */
  lemma PostBranches(settings: ChatSettings, messages: seq<InMessage>, profile: map<Field, Value>,
                     limits: map<string, nat>, call: CallOutcome, isDevelopment: bool,
                     mediaTypeOf: string -> string, base64Of: string -> string)
    ensures var check := CheckApiKey(Lookup(profile, AnthropicApiKey), "Anthropic");
      check.Fail? ==>
      Post(settings, messages, profile, limits, call, isDevelopment, mediaTypeOf, base64Of)
        == OuterResponse(ProviderError(check.error, 0, None), isDevelopment)
    ensures var check := CheckApiKey(Lookup(profile, AnthropicApiKey), "Anthropic");
      var shaped := ReshapeAll(AfterSystem(messages), mediaTypeOf, base64Of);
      check.Pass? && shaped.Failure? ==>
      Post(settings, messages, profile, limits, call, isDevelopment, mediaTypeOf, base64Of)
        == OuterResponse(ProviderError(MapOfUndefined, 0, None), isDevelopment)
    ensures var key := Lookup(profile, AnthropicApiKey);
      var shaped := ReshapeAll(AfterSystem(messages), mediaTypeOf, base64Of);
      CheckApiKey(key, "Anthropic").Pass? && shaped.Success? ==>
      Post(settings, messages, profile, limits, call, isDevelopment, mediaTypeOf, base64Of)
        == CallResponse(settings, messages, shaped.value, KeyText(key), limits, call, isDevelopment)
  {
    var key := Lookup(profile, AnthropicApiKey);
    var check := CheckApiKey(key, "Anthropic");
    var r := Post(settings, messages, profile, limits, call, isDevelopment, mediaTypeOf, base64Of);
    if check.Fail? {
      assert r == OuterResponse(ProviderError(check.error, 0, None), isDevelopment);
    } else {
      var shaped := ReshapeAll(AfterSystem(messages), mediaTypeOf, base64Of);
      if shaped.Failure? {
        assert r == OuterResponse(ProviderError(shaped.error, 0, None), isDevelopment);
      } else {
        assert r == CallResponse(settings, messages, shaped.value, KeyText(key), limits, call, isDevelopment);
      }
    }
  }

  /** The outer chain's JSON answer. */
  function OuterResponse(e: ProviderError, isDevelopment: bool): (r: RouteResponse<AnthropicRequest>)
    ensures r.JsonError? && r.status == OuterClassify(e).code && r.message == OuterClassify(e).message
    ensures r.error == if isDevelopment then Some(e.message) else None
  {
    ErrorResponse(OuterClassify(e), e, isDevelopment)
  }

  /** The inner chain's JSON answer. */
  function InnerResponse(e: ProviderError, isDevelopment: bool): (r: RouteResponse<AnthropicRequest>)
    ensures r.JsonError? && r.status == InnerClassify(e).code && r.message == InnerClassify(e).message
    ensures r.error == if isDevelopment then Some(e.message) else None
  {
    ErrorResponse(InnerClassify(e), e, isDevelopment)
  }

  /** Building the request and calling the provider, inside the inner `try`:
      the system prompt and the token limit are read first. */
  function CallResponse(settings: ChatSettings, messages: seq<InMessage>, formatted: seq<OutMessage>,
                        apiKey: string, limits: map<string, nat>, call: CallOutcome, isDevelopment: bool)
    : (r: RouteResponse<AnthropicRequest>)
    ensures r.Streaming? <==> |messages| > 0 && settings.model in limits && call.Streamed?
    ensures r.Streaming? ==>
      r.request == AnthropicRequest(settings.model, formatted, settings.temperature, messages[0].content,
                                    limits[settings.model], apiKey)
    ensures messages == [] ==> r == InnerResponse(ProviderError(ContentOfUndefined, 0, None), isDevelopment)
    ensures messages != [] && settings.model !in limits ==>
      r == InnerResponse(ProviderError(LimitOfUndefined, 0, None), isDevelopment)
    ensures messages != [] && settings.model in limits && call.StreamUnwrappable? ==>
      r == JsonError(500, ParseFailure, None)
    ensures messages != [] && settings.model in limits && call.Threw? ==> r == InnerResponse(call.error, isDevelopment)
  {
    if messages == [] then InnerResponse(ProviderError(ContentOfUndefined, 0, None), isDevelopment)
    else if settings.model !in limits then InnerResponse(ProviderError(LimitOfUndefined, 0, None), isDevelopment)
    else
      match call
      case Streamed =>
        Streaming(AnthropicRequest(settings.model, formatted, settings.temperature, messages[0].content,
                                   limits[settings.model], apiKey))
      case StreamUnwrappable => JsonError(500, ParseFailure, None)
      case Threw(e) => InnerResponse(e, isDevelopment)
  }

  /** A profile without an Anthropic key is answered 401 with the
      not-found-or-invalid text: the key check's message reaches the outer
      chain, which recognises it. */
  lemma MissingKeyIs401(settings: ChatSettings, messages: seq<InMessage>, profile: map<Field, Value>,
                        limits: map<string, nat>, call: CallOutcome, isDevelopment: bool,
                        mediaTypeOf: string -> string, base64Of: string -> string)
    requires Lookup(profile, AnthropicApiKey) in {Some(Null), Some(Str(""))}
    ensures Post(settings, messages, profile, limits, call, isDevelopment, mediaTypeOf, base64Of)
      == JsonError(401, KeyNotFoundOrInvalid, if isDevelopment then Some("Anthropic" + " API Key not found") else None)
  {
    var m := "Anthropic" + " API Key not found";
    assert CheckApiKey(Lookup(profile, AnthropicApiKey), "Anthropic") == Fail(m);
    CheckFailureMentionsNotFound("Anthropic");
    assert MessageOr(m, UnexpectedServerError) == m;
    assert AnyKeyword(NotFoundKeywords, ToLower(m));
    var e := ProviderError(m, 0, None);
    assert OuterClassify(e) == Classified(401, KeyNotFoundOrInvalid);
    assert Post(settings, messages, profile, limits, call, isDevelopment, mediaTypeOf, base64Of)
      == OuterResponse(e, isDevelopment);
  }

  /** When the provider call throws, the answer carries the inner chain's
      status and message, and the raw message only in development. */
  lemma ThrownCallIsInnerClassified(settings: ChatSettings, messages: seq<InMessage>, profile: map<Field, Value>,
                                    limits: map<string, nat>, e: ProviderError, isDevelopment: bool,
                                    mediaTypeOf: string -> string, base64Of: string -> string)
    requires CheckApiKey(Lookup(profile, AnthropicApiKey), "Anthropic").Pass?
    requires ReshapeAll(AfterSystem(messages), mediaTypeOf, base64Of).Success?
    requires |messages| > 0 && settings.model in limits
    ensures var r := Post(settings, messages, profile, limits, Threw(e), isDevelopment, mediaTypeOf, base64Of);
      && r.JsonError?
      && r.status == InnerClassify(e).code && r.message == InnerClassify(e).message
      && (r.error.Some? <==> isDevelopment)
  {
    var key := Lookup(profile, AnthropicApiKey);
    var formatted := ReshapeAll(AfterSystem(messages), mediaTypeOf, base64Of).value;
    assert Post(settings, messages, profile, limits, Threw(e), isDevelopment, mediaTypeOf, base64Of)
      == CallResponse(settings, messages, formatted, KeyText(key), limits, Threw(e), isDevelopment)
      == InnerResponse(e, isDevelopment);
  }
}

=== FILE: chat_helpers.dfy ===
/** The client-side chat helpers: the optimistic temporary messages of a turn,
    the classification of a failed chat request into the text of an error
    toast, the rollback after such a failure, folding a streamed response into
    the assistant message, and the in-memory finalisation of a guest turn. */
module ChatHelpers {
  import opened Wrappers
  import opened Text
  import opened ChatTypes
  import opened KeywordTable
  import opened ConsumeStream

  datatype Role = User | Assistant

  /** A row of the `messages` table as the client holds it. The timestamps
      are left out. */
  datatype Message = Message(
    id: string,
    chatId: string,
    assistantId: Option<string>,
    userId: string,
    content: string,
    model: string,
    role: Role,
    sequenceNumber: int,
    imagePaths: seq<string>)

  /** A message with the ids of the file items retrieved for it. */
  datatype ChatMessage = ChatMessage(message: Message, fileItems: seq<string>)

  /** A row of the `file_items` table. */
  datatype FileItem = FileItem(id: string, content: string)

  /** What `await response.clone().json()` gives for an error response: a
      body that is not JSON, or a JSON body whose `message` is the given
      string (`""` standing for a missing or empty `message`). */
  datatype ErrorBody = Unreadable | Json(message: string)

  /** An HTTP response: its status, its error body, its parsed `Retry-After`
      header (when the header is present and non-empty), and its body
      stream (`null` when it has none). */
  datatype HttpResponse = HttpResponse(
    status: nat,
    errorBody: ErrorBody,
    retryAfter: Option<nat>,
    body: ReadableStream?)

  /** The error JavaScript throws when a helper reads `.message` of the last
      element of an empty list. */
  const UndefinedLastMessage := "Cannot read properties of undefined (reading 'message')"

  // ---------------------------------------------------------------------
  // validateChatSettings

  /** The five preconditions of a chat turn, checked in order; the first one
      that fails is reported. */
  function ValidateChatSettings(chatSettings: Option<ChatSettings>, modelData: Option<LLM>,
                                profilePresent: bool, workspacePresent: bool,
                                messageContent: string): (r: Outcome<string>)
    ensures r.Pass? <==>
      chatSettings.Some? && modelData.Some? && profilePresent && workspacePresent && messageContent != ""
    ensures chatSettings.None? ==> r == Fail("Chat settings not found")
    ensures chatSettings.Some? && modelData.None? ==> r == Fail("Model not found")
    ensures chatSettings.Some? && modelData.Some? && !profilePresent ==> r == Fail("Profile not found")
    ensures chatSettings.Some? && modelData.Some? && profilePresent && !workspacePresent ==>
      r == Fail("Workspace not found")
    ensures chatSettings.Some? && modelData.Some? && profilePresent && workspacePresent && messageContent == "" ==>
      r == Fail("Message content not found")
  {
    if chatSettings.None? then Fail("Chat settings not found")
    else if modelData.None? then Fail("Model not found")
    else if !profilePresent then Fail("Profile not found")
    else if !workspacePresent then Fail("Workspace not found")
    else if messageContent == "" then Fail("Message content not found")
    else Pass
  }

  // ---------------------------------------------------------------------
  // The message list

  /** Every message carries its position in the list as its sequence number. */
  predicate Numbered(msgs: seq<ChatMessage>) {
    forall i :: 0 <= i < |msgs| ==> msgs[i].message.sequenceNumber == i
  }

  /** `selectedAssistant?.id || null`. */
  function AssistantIdOf(selectedAssistant: Option<string>): (r: Option<string>)
    ensures r.Some? <==> selectedAssistant.Some? && selectedAssistant.value != ""
    ensures r.Some? ==> r == selectedAssistant
  {
    if selectedAssistant.Some? && selectedAssistant.value != "" then selectedAssistant else None
  }

  /** The optimistic user message of a turn on a list of `len` messages. */
  function TempUserMessage(id: string, messageContent: string, settings: ChatSettings,
                           b64Images: seq<string>, len: nat): ChatMessage
  {
    ChatMessage(Message(id, "", None, "", messageContent, settings.model, User, len, b64Images), [])
  }

  /** The optimistic, still empty, assistant message of a turn on a list of `len` messages. */
  function TempAssistantMessage(id: string, settings: ChatSettings, selectedAssistant: Option<string>,
                                len: nat): ChatMessage
  {
    ChatMessage(Message(id, "", AssistantIdOf(selectedAssistant), "", "", settings.model, Assistant, len + 1, []), [])
  }

  /** The list with the content of its last message replaced by `text`; the
      last message keeps its file items when `keepFileItems` holds and loses
      them otherwise. */
  function WithLastContent(msgs: seq<ChatMessage>, text: string, keepFileItems: bool): seq<ChatMessage>
    requires msgs != []
  {
    var last := msgs[|msgs| - 1];
    msgs[..|msgs| - 1]
      + [ChatMessage(last.message.(content := text), if keepFileItems then last.fileItems else [])]
  }

  /** Replacing the last content keeps the length and every other message,
      and changes nothing of the last message but its content (and, when
      asked, its file items). */
  lemma WithLastContentShape(msgs: seq<ChatMessage>, text: string, keepFileItems: bool)
    requires msgs != []
    ensures var r := WithLastContent(msgs, text, keepFileItems);
      && |r| == |msgs|
      && (forall i :: 0 <= i < |msgs| - 1 ==> r[i] == msgs[i])
      && r[|r| - 1].message == msgs[|msgs| - 1].message.(content := text)
      && r[|r| - 1].fileItems == (if keepFileItems then msgs[|msgs| - 1].fileItems else [])
      && (Numbered(msgs) ==> Numbered(r))
  {
  }

  /** Append mode adds exactly two messages after the old list, numbered
      `len` and `len + 1`; the user message carries the typed content and
      the assistant message is empty. A numbered list stays numbered. */
  lemma AppendTempShape(msgs: seq<ChatMessage>, userId: string, assistantId: string,
                        messageContent: string, settings: ChatSettings, b64Images: seq<string>,
                        selectedAssistant: Option<string>)
    ensures var r := msgs + [TempUserMessage(userId, messageContent, settings, b64Images, |msgs|),
                             TempAssistantMessage(assistantId, settings, selectedAssistant, |msgs|)];
      && |r| == |msgs| + 2 && r[..|msgs|] == msgs
      && r[|msgs|].message.sequenceNumber == |msgs| && r[|msgs|].message.content == messageContent
      && r[|msgs|].message.role == User
      && r[|msgs| + 1].message.sequenceNumber == |msgs| + 1 && r[|msgs| + 1].message.content == ""
      && r[|msgs| + 1].message.role == Assistant
      && (Numbered(msgs) ==> Numbered(r))
  {
  }

  /** `list.slice(0, -k)`: everything but the last `k` elements, or nothing
      when the list is shorter than `k`. */
  function DropLast<T>(s: seq<T>, k: nat): (r: seq<T>)
    ensures |r| == if |s| >= k then |s| - k else 0
    ensures r == s[..|r|]
  {
    if |s| >= k then s[..|s| - k] else []
  }

  /** Rolling back a failed append turn restores the list exactly. */
  lemma RollbackUndoesAppend(msgs: seq<ChatMessage>, user: ChatMessage, assistant: ChatMessage)
    ensures DropLast(msgs + [user, assistant], 2) == msgs
  {
    assert (msgs + [user, assistant])[..|msgs|] == msgs;
  }

  /** Rolling back a failed regeneration also drops the message before the
      one being regenerated: the list loses two messages although the
      regeneration added none. */
  lemma RollbackAfterRegeneration(msgs: seq<ChatMessage>)
    requires msgs != []
    ensures var r := DropLast(WithLastContent(msgs, "", true), 2);
      |msgs| >= 2 ==> r == msgs[..|msgs| - 2] && |r| == |msgs| - 2
    ensures |msgs| < 2 ==> DropLast(WithLastContent(msgs, "", true), 2) == []
  {
    var w := WithLastContent(msgs, "", true);
    if |msgs| >= 2 {
      assert w[..|msgs| - 2] == msgs[..|msgs| - 2];
    }
  }

  // ---------------------------------------------------------------------
  // Classifying a failed request

  predicate IsOk(status: nat) {
    200 <= status <= 299
  }

  /** The parenthesised part of the 429 text: minutes, then the remaining
      seconds when there are any, each pluralised above one. */
  function DurationText(minutes: nat, seconds: nat): string {
    NatToString(minutes) + " minute" + Plural(minutes)
      + (if seconds > 0 then " and " + NatToString(seconds) + " second" + Plural(seconds) else "")
  }

  /** The 429 text built from a `Retry-After` of `wait` seconds: the seconds,
      then `Math.ceil(wait / 60)` minutes and `wait % 60` seconds. */
  function WaitText(wait: nat): string {
    "Rate limit exceeded. Please wait " + NatToString(wait) + " seconds ("
      + DurationText(CeilDiv(wait, 60), wait % 60) + ") before trying again."
  }

  /** The minutes and seconds of the wait text describe the wait exactly
      when it is a whole number of minutes; otherwise they add up to a full
      minute more than the wait, since the minutes are rounded up. */
  lemma WaitBreakdown(wait: nat)
    ensures var minutes, seconds := CeilDiv(wait, 60), wait % 60;
      && (seconds == 0 ==> minutes * 60 == wait)
      && (seconds > 0 ==> minutes * 60 + seconds == wait + 60)
  {
  }

  /** Two minutes and thirty seconds, as the 429 text spells them. */
  lemma TwoMinutesThirty()
    ensures DurationText(2, 30) == "2 minutes and 30 seconds"
  {
    assert NatToString(2) + " minute" + Plural(2) == "2 minutes" by {
      assert NatToString(2) == "2";
    }
    assert " and " + NatToString(30) + " second" + Plural(30) == " and 30 seconds" by {
      assert NatToString(30) == "30" by {
        assert NatToString(3) == "3";
      }
    }
  }

  /** Ninety seconds read as two minutes and thirty seconds. */
  lemma NinetySeconds()
    ensures WaitText(90)
      == "Rate limit exceeded. Please wait " + "90" + " seconds (" + "2 minutes and 30 seconds" + ") before trying again."
  {
    assert DurationText(CeilDiv(90, 60), 90 % 60) == "2 minutes and 30 seconds" by {
      assert CeilDiv(90, 60) == 2 && 90 % 60 == 30;
      TwoMinutesThirty();
    }
    assert NatToString(90) == "90" by {
      assert NatToString(9) == "9";
    }
  }

  /** The first-match table applied to a 400 error message, lower-cased. */
  const BadRequestRules: seq<Rule> := [
    Rule(["context length", "token", "too long"],
         "Message too long. Please reduce the message length or context size."),
    Rule(["invalid", "format"], "Invalid request format. Please check your message and try again."),
    Rule(["model", "not found"], "Model not available or invalid. Please select a different model."),
    Rule(["parameter", "missing"], "Missing or invalid parameters. Please try again.")
  ]

  /** The 404 toast of a local model. */
  const OllamaNotFound := "Model not found. Make sure you have it downloaded via Ollama."

  /** The 429 text of a readable body that mentions rate limiting, without a wait. */
  const RateLimitNoWait :=
    "Rate limit exceeded. Please wait 1-2 minutes before trying again. Your API provider has rate limits to prevent abuse."

  /** The 429 text without a readable body and without a wait. */
  const RateLimitMoment := "Rate limit exceeded. Please wait a moment and try again."

  /** The first-match table applied to the URL of a hosted request that met a 404. */
  const EndpointRules: seq<Rule> := [
    Rule(["/api/chat/openai"],
         "OpenAI endpoint not found. The model may not be available or the API route may be missing."),
    Rule(["/api/chat/anthropic"],
         "Anthropic endpoint not found. The model may not be available or the API route may be missing."),
    Rule(["/api/chat/custom"], "Custom model endpoint not found. Please check your custom model configuration.")
  ]

  /** `url.split("/").pop()`: the part of the URL after its last `/`, or
      the whole URL when it has none. */
  function UrlTail(url: string): (tail: string)
    ensures '/' !in tail
    ensures |tail| <= |url| && url[|url| - |tail|..] == tail
    ensures |tail| == |url| || url[|url| - |tail| - 1] == '/'
  {
    var pieces := Split(url, '/');
    JoinSplit(url, '/');
    JoinEndsWithLast(pieces, '/');
    pieces[|pieces| - 1]
  }

  /** A URL without a `/` is its own tail. */
  lemma UrlTailOfPlainName(url: string)
    requires '/' !in url
    ensures UrlTail(url) == url
  {
    var tail := UrlTail(url);
    assert |tail| == |url|;
    assert url[|url| - |tail|..] == url;
  }

  /** The 404 toast. A JSON body's message is never shown: every hosted
      branch overwrites it with the text of the first endpoint the URL
      mentions, or the generic text with the URL. */
  function NotFoundToast(isHosted: bool, url: string, body: ErrorBody): (toast: string)
    ensures toast != ""
    ensures !isHosted ==> toast == OllamaNotFound
    ensures isHosted && body.Json? ==>
      && (forall i :: Decides(EndpointRules, url, i) ==> toast == EndpointRules[i].text)
      && (NoRuleMatches(EndpointRules, url) ==> toast == "API endpoint not found (404): " + url)
    ensures isHosted && body.Unreadable? ==> toast == MessageOr(UrlTail(url), "API endpoint") + " not found (404)"
  {
    if !isHosted then OllamaNotFound
    else if body.Json? then
      FirstMatchDecides(EndpointRules, url);
      FirstMatch(EndpointRules, url).GetOr("API endpoint not found (404): " + url)
    else MessageOr(UrlTail(url), "API endpoint") + " not found (404)"
  }

  /** The 429 toast. A body message (or its default) that does not mention
      rate limiting is shown as is; one that does is replaced by the wait
      text, or the "1-2 minutes" text without a wait. Without a readable
      body, the wait decides alone. */
  function RateLimitToast(body: ErrorBody, retryAfter: Option<nat>): (toast: string)
    ensures toast != ""
    ensures body.Json? ==> var message := MessageOr(body.message, "Rate limit exceeded");
      && (!Contains(message, "rate limit") && !Contains(message, "429") ==> toast == message)
      && (Contains(message, "rate limit") || Contains(message, "429") ==>
            toast == if retryAfter.Some? then WaitText(retryAfter.value) else RateLimitNoWait)
    ensures body.Unreadable? ==>
      toast == if retryAfter.Some? then WaitText(retryAfter.value) else RateLimitMoment
  {
    match body
    case Json(m) =>
      var message := MessageOr(m, "Rate limit exceeded");
      if Contains(message, "rate limit") || Contains(message, "429") then
        if retryAfter.Some? then WaitText(retryAfter.value) else RateLimitNoWait
      else message
    case Unreadable =>
      if retryAfter.Some? then WaitText(retryAfter.value) else RateLimitMoment
  }

  /** The 400 toast: the text of the first rule of the table the
      lower-cased body message (or its default) mentions, or that message
      itself when it mentions none. */
  function BadRequestToast(body: ErrorBody): (toast: string)
    ensures toast != ""
    ensures body.Json? ==> var message := MessageOr(body.message, "Invalid request");
      && (forall i :: Decides(BadRequestRules, ToLower(message), i) ==> toast == BadRequestRules[i].text)
      && (NoRuleMatches(BadRequestRules, ToLower(message)) ==> toast == message)
    ensures body.Unreadable? ==> toast == "Invalid request (400). Please check your message and try again."
  {
    match body
    case Json(m) =>
      var message := MessageOr(m, "Invalid request");
      FirstMatchDecides(BadRequestRules, ToLower(message));
      FirstMatch(BadRequestRules, ToLower(message)).GetOr(message)
    case Unreadable => "Invalid request (400). Please check your message and try again."
  }

  /** The body's `message`, or nothing when the body is not JSON. */
  function BodyMessage(body: ErrorBody): string {
    if body.Json? then body.message else ""
  }

  /** The text of the error toast for a non-2xx response: 404, 429 and 400
      have toasts of their own; 401, the server errors and every other
      status show the body's message, or a default naming the status. */
  function StatusToast(status: nat, isHosted: bool, url: string, body: ErrorBody,
                       retryAfter: Option<nat>): (toast: string)
    ensures toast != ""
    ensures status == 404 ==> toast == NotFoundToast(isHosted, url, body)
    ensures status == 429 ==> toast == RateLimitToast(body, retryAfter)
    ensures status == 400 ==> toast == BadRequestToast(body)
    ensures status == 401 ==>
      toast == MessageOr(BodyMessage(body), "Invalid API key. Please check your API keys in settings.")
    ensures status == 500 || status == 502 || status == 503 ==>
      toast == MessageOr(BodyMessage(body), "Server error (" + NatToString(status) + "). Please try again later.")
    ensures status !in {400, 401, 404, 429, 500, 502, 503} ==>
      toast == MessageOr(BodyMessage(body), "Error: " + NatToString(status))
    ensures status !in {404, 429, 400} && body.Json? && body.message != "" ==> toast == body.message
  {
    var code := NatToString(status);
    if status == 404 then NotFoundToast(isHosted, url, body)
    else if status == 429 then RateLimitToast(body, retryAfter)
    else if status == 400 then BadRequestToast(body)
    else if status == 401 then
      MessageOr(BodyMessage(body), "Invalid API key. Please check your API keys in settings.")
    else if status == 500 || status == 502 || status == 503 then
      MessageOr(BodyMessage(body), "Server error (" + code + "). Please try again later.")
    else
      MessageOr(BodyMessage(body), "Error: " + code)
  }

  /** A 429 body message that mentions `rate limit` or `429` anywhere is
      replaced: by the wait text when there is a wait, by the "1-2 minutes"
      text otherwise. */
  lemma RateLimitRewrite(a: string, word: string, b: string, retryAfter: Option<nat>)
    requires word == "rate limit" || word == "429"
    ensures RateLimitToast(Json(a + word + b), retryAfter)
      == if retryAfter.Some? then WaitText(retryAfter.value) else RateLimitNoWait
  {
    ContainsMiddle(a, word, b);
  }

  /** A 429 without a body message keeps the default text, whatever the wait:
      the default does not mention `rate limit` in lower case. */
  lemma RateLimitDefaultKept(retryAfter: Option<nat>)
    ensures RateLimitToast(Json(""), retryAfter) == "Rate limit exceeded"
  {
    var d := "Rate limit exceeded";
    assert forall i :: 0 <= i < |d| ==> d[i] != 'r' && d[i] != '4';
    NotContained(d, "rate limit");
    NotContained(d, "429");
  }

  /** A 400 message that mentions none of the table's keywords is shown as is. */
  lemma BadRequestUnmatchedKept(m: string)
    requires m != ""
    requires forall i :: 0 <= i < |BadRequestRules| ==> !Matches(BadRequestRules[i], ToLower(m))
    ensures BadRequestToast(Json(m)) == m
  {
    FirstMatchSpec(BadRequestRules, ToLower(m));
  }

  /** A 400 message that mentions a token is reported as too long, whatever
      else it mentions, since that rule comes first. */
  lemma BadRequestTokenFirst(a: string, b: string)
    ensures BadRequestToast(Json(a + "token" + b))
      == "Message too long. Please reduce the message length or context size."
  {
    var m := a + "token" + b;
    LoweredMention(a, "token", b);
    assert Matches(BadRequestRules[0], ToLower(m)) by {
      assert BadRequestRules[0].keywords[1] == "token";
    }
    FirstMatchAt(BadRequestRules, ToLower(m), 0);
  }

  // ---------------------------------------------------------------------
  // The hosted provider and endpoint

  datatype HostedTarget = HostedTarget(provider: string, endpoint: string, customModelId: string)

  /** An OpenAI model goes to the Azure route when the profile asks for
      Azure; the endpoint is the route of the provider, and only a custom
      model passes its hosted id on. */
  function HostedChatTarget(modelProvider: string, useAzureOpenai: bool, hostedId: string): (t: HostedTarget)
    ensures t.endpoint == "/api/chat/" + t.provider
    ensures t.provider == (if modelProvider == "openai" && useAzureOpenai then "azure" else modelProvider)
    ensures t.customModelId == (if t.provider == "custom" then hostedId else "")
  {
    var provider := if modelProvider == "openai" && useAzureOpenai then "azure" else modelProvider;
    var endpoint := if provider == "custom" then "/api/chat/custom" else "/api/chat/" + provider;
    HostedTarget(provider, endpoint, if provider == "custom" then hostedId else "")
  }

  // ---------------------------------------------------------------------
  // Folding the streamed chunks

  /** Ollama's lines, reduced left to right from `acc`: each line contributes
      the `message.content` of its JSON, and one line that does not parse
      makes the whole reduction throw. */
  function ReduceLines(acc: string, lines: seq<string>, parseLine: string -> Option<string>): Option<string>
    decreases |lines|
  {
    if lines == [] then Some(acc)
    else
      match parseLine(lines[0])
      case None => None
      case Some(t) => ReduceLines(acc + t, lines[1..], parseLine)
  }

  /** The contents of lines that all parse, concatenated in order. */
  function ParsedContents(lines: seq<string>, parseLine: string -> Option<string>): string
    requires forall i :: 0 <= i < |lines| ==> parseLine(lines[i]).Some?
  {
    if lines == [] then "" else parseLine(lines[0]).value + ParsedContents(lines[1..], parseLine)
  }

  /** The reduction fails exactly when some line does not parse, and
      otherwise appends the contents of all lines, in order, to `acc`. */
  lemma {:induction false} ReduceLinesSpec(acc: string, lines: seq<string>, parseLine: string -> Option<string>)
    ensures ReduceLines(acc, lines, parseLine).None? <==>
      exists i :: 0 <= i < |lines| && parseLine(lines[i]).None?
    ensures ReduceLines(acc, lines, parseLine).Some? ==>
      (forall i :: 0 <= i < |lines| ==> parseLine(lines[i]).Some?)
      && ReduceLines(acc, lines, parseLine).value == acc + ParsedContents(lines, parseLine)
    decreases |lines|
  {
    if lines != [] {
      match parseLine(lines[0])
      case None =>
      case Some(t) =>
        ReduceLinesSpec(acc + t, lines[1..], parseLine);
        if exists i :: 0 <= i < |lines[1..]| && parseLine(lines[1..][i]).None? {
          var i :| 0 <= i < |lines[1..]| && parseLine(lines[1..][i]).None?;
          assert parseLine(lines[i + 1]).None?;
        }
        if exists i :: 0 <= i < |lines| && parseLine(lines[i]).None? {
          var i :| 0 <= i < |lines| && parseLine(lines[i]).None?;
          assert i > 0 && parseLine(lines[1..][i - 1]).None?;
        }
        if ReduceLines(acc, lines, parseLine).Some? {
          forall i | 0 <= i < |lines| ensures parseLine(lines[i]).Some? {
            if i > 0 { assert lines[i] == lines[1..][i - 1]; }
          }
          assert acc + t + ParsedContents(lines[1..], parseLine) == acc + (t + ParsedContents(lines[1..], parseLine));
        }
    }
  }

  /** What one chunk adds to the text: a hosted chunk itself; a local chunk
      the contents of its newline-separated JSON lines after trailing
      whitespace is trimmed, or nothing at all when any line does not parse. */
  function ChunkContribution(chunk: string, isHosted: bool, parseLine: string -> Option<string>): Option<string>
  {
    if isHosted then Some(chunk) else ReduceLines("", Split(TrimEnd(chunk), '\n'), parseLine)
  }

  /** A local chunk of whitespace only adds nothing: it trims to the empty
      string, which is one line that is not JSON. */
  lemma BlankChunkDropped(chunk: string, parseLine: string -> Option<string>)
    requires forall i :: 0 <= i < |chunk| ==> IsWhitespace(chunk[i])
    requires parseLine("").None?
    ensures ChunkContribution(chunk, false, parseLine) == None
  {
    assert TrimEnd(chunk) == [];
    assert Split(TrimEnd(chunk), '\n') == [""];
  }

  /** A local chunk that is a run of newline-separated lines, each one
      parsed, contributes their contents in order. */
  lemma LinesChunk(lines: seq<string>, parseLine: string -> Option<string>)
    requires |lines| > 0
    requires forall i :: 0 <= i < |lines| ==> '\n' !in lines[i] && parseLine(lines[i]).Some?
    requires var last := lines[|lines| - 1]; last != [] && !IsWhitespace(last[|last| - 1])
    ensures ChunkContribution(Join(lines, '\n'), false, parseLine) == Some(ParsedContents(lines, parseLine))
  {
    var s := Join(lines, '\n');
    var last := lines[|lines| - 1];
    JoinEndsWithLast(lines, '\n');
    assert s[|s| - 1] == s[|s| - |last|..][|last| - 1] == last[|last| - 1];
    assert TrimEnd(s) == s;
    SplitJoin(lines, '\n');
    ReduceLinesSpec("", lines, parseLine);
    assert "" + ParsedContents(lines, parseLine) == ParsedContents(lines, parseLine);
  }

  /** A join ends with its last piece, which is the whole join or follows
      a separator. */
  lemma {:induction false} JoinEndsWithLast(pieces: seq<string>, sep: char)
    requires |pieces| > 0
    ensures var j := Join(pieces, sep); var last := pieces[|pieces| - 1];
      && |j| >= |last| && j[|j| - |last|..] == last
      && (|j| == |last| || j[|j| - |last| - 1] == sep)
    decreases |pieces|
  {
    if |pieces| > 1 {
      JoinEndsWithLast(pieces[1..], sep);
      var last := pieces[|pieces| - 1];
      var tail := Join(pieces[1..], sep);
      var j := pieces[0] + [sep] + tail;
      assert j[|j| - |tail|..] == tail;
      if |tail| == |last| {
        assert j[|j| - |last| - 1] == sep;
      } else {
        assert j[|j| - |last| - 1] == tail[|tail| - |last| - 1];
      }
    }
  }

  /** `fullText` after the callback has seen `chunks`. */
  function FullText(chunks: seq<string>, isHosted: bool, parseLine: string -> Option<string>): string
    decreases |chunks|
  {
    if chunks == [] then ""
    else FullText(chunks[..|chunks| - 1], isHosted, parseLine)
         + ChunkContribution(chunks[|chunks| - 1], isHosted, parseLine).GetOr("")
  }

  /** One more chunk appends its contribution, if it has one. */
  lemma FullTextStep(chunks: seq<string>, i: nat, isHosted: bool, parseLine: string -> Option<string>)
    requires i < |chunks|
    ensures FullText(chunks[..i + 1], isHosted, parseLine)
      == FullText(chunks[..i], isHosted, parseLine) + ChunkContribution(chunks[i], isHosted, parseLine).GetOr("")
  {
    assert chunks[..i + 1][..i] == chunks[..i];
  }

  /** `fullText` only ever grows, by appending. */
  lemma {:induction false} FullTextGrows(chunks: seq<string>, i: nat, isHosted: bool,
                                         parseLine: string -> Option<string>)
    requires i <= |chunks|
    ensures StartsWith(FullText(chunks, isHosted, parseLine), FullText(chunks[..i], isHosted, parseLine))
    decreases |chunks|
  {
    if i < |chunks| {
      var init := chunks[..|chunks| - 1];
      FullTextGrows(init, i, isHosted, parseLine);
      assert init[..i] == chunks[..i];
    } else {
      assert chunks[..i] == chunks;
    }
  }

  /** A chunk that does not parse leaves `fullText` as it was. */
  lemma MalformedChunkIgnored(chunks: seq<string>, chunk: string, isHosted: bool,
                              parseLine: string -> Option<string>)
    requires ChunkContribution(chunk, isHosted, parseLine).None?
    ensures FullText(chunks + [chunk], isHosted, parseLine) == FullText(chunks, isHosted, parseLine)
  {
    assert (chunks + [chunk])[..|chunks|] == chunks;
  }

  /** The concatenation of a list of strings. */
  function Concat(chunks: seq<string>): string {
    if chunks == [] then "" else Concat(chunks[..|chunks| - 1]) + chunks[|chunks| - 1]
  }

  /** Hosted chunks are appended verbatim. */
  lemma {:induction false} HostedFullText(chunks: seq<string>, parseLine: string -> Option<string>)
    ensures FullText(chunks, true, parseLine) == Concat(chunks)
    decreases |chunks|
  {
    if chunks != [] {
      HostedFullText(chunks[..|chunks| - 1], parseLine);
    }
  }

  /** The message list with the content of every message whose id is `id`
      replaced by `text`. */
  function UpdateTarget(msgs: seq<ChatMessage>, id: string, text: string): (r: seq<ChatMessage>)
    ensures |r| == |msgs|
    ensures forall i :: 0 <= i < |msgs| ==>
      r[i] == if msgs[i].message.id == id then msgs[i].(message := msgs[i].message.(content := text)) else msgs[i]
  {
    if msgs == [] then []
    else
      var m := msgs[0];
      [if m.message.id == id then m.(message := m.message.(content := text)) else m]
        + UpdateTarget(msgs[1..], id, text)
  }

  /** Updating the target twice leaves the second text, as if the first
      update had not happened; and the update keeps a list numbered. */
  lemma UpdateTargetOverwrites(msgs: seq<ChatMessage>, id: string, a: string, b: string)
    ensures UpdateTarget(UpdateTarget(msgs, id, a), id, b) == UpdateTarget(msgs, id, b)
    ensures Numbered(msgs) ==> Numbered(UpdateTarget(msgs, id, a))
  {
  }

  /** The id of the message `handleHostedChat` hands `processResponse`: the
      last message of the list when regenerating, the new assistant message
      otherwise. */
  function ResponseTargetId(isRegeneration: bool, chatMessages: seq<ChatMessage>,
                            tempAssistant: ChatMessage): string
    requires isRegeneration ==> chatMessages != []
  {
    if isRegeneration then chatMessages[|chatMessages| - 1].message.id else tempAssistant.message.id
  }

  /** The list `createTempMessages` shows for a turn. */
  function TempMessages(chatMessages: seq<ChatMessage>, user: ChatMessage, assistant: ChatMessage,
                        isRegeneration: bool): (shown: seq<ChatMessage>)
    requires isRegeneration ==> chatMessages != []
    ensures |shown| == if isRegeneration then |chatMessages| else |chatMessages| + 2
  {
    if isRegeneration then WithLastContent(chatMessages, "", true) else chatMessages + [user, assistant]
  }

  /** In both modes the response is written into the last message the turn
      shows: `processResponse`, given `ResponseTargetId` on the list
      `createTempMessages` produced, fills that last message with the text
      and leaves every message with another id as it was. */
  lemma ResponseLandsInLastMessage(chatMessages: seq<ChatMessage>, user: ChatMessage, assistant: ChatMessage,
                                   isRegeneration: bool, text: string)
    requires isRegeneration ==> chatMessages != []
    ensures var shown := TempMessages(chatMessages, user, assistant, isRegeneration);
      var id := ResponseTargetId(isRegeneration, chatMessages, assistant);
      var after := UpdateTarget(shown, id, text);
      && id == shown[|shown| - 1].message.id
      && after[|after| - 1].message == shown[|shown| - 1].message.(content := text)
      && forall i :: 0 <= i < |shown| && shown[i].message.id != id ==> after[i] == shown[i]
  {
  }

  /** The message a failure of the stream is rethrown with. */
  function RethrownMessage(error: string): (r: string)
    ensures Contains(error, "locked") ==> r == "Stream is already in use. Please try again."
    ensures !Contains(error, "locked") ==> r == error
  {
    if Contains(error, "locked") then "Stream is already in use. Please try again." else error
  }

  // ---------------------------------------------------------------------
  // Guest file items

  function Ids(items: seq<FileItem>): set<string> {
    set i | 0 <= i < |items| :: items[i].id
  }

  /** The retrieved items whose ids are not in `known`, in order. */
  function NewItems(retrieved: seq<FileItem>, known: set<string>): (r: seq<FileItem>)
    ensures |r| <= |retrieved|
    ensures forall i :: 0 <= i < |r| ==> r[i].id !in known
    ensures forall i :: 0 <= i < |retrieved| && retrieved[i].id !in known ==> retrieved[i] in r
    ensures forall x :: x in r ==> x in retrieved
    ensures (forall i :: 0 <= i < |retrieved| ==> retrieved[i].id in known) ==> r == []
  {
    if retrieved == [] then []
    else (if retrieved[0].id in known then [] else [retrieved[0]]) + NewItems(retrieved[1..], known)
  }

  /** `filter` keeps order and multiplicity: filtering a concatenation
      concatenates the filtered parts. */
  lemma {:induction false} NewItemsAppend(a: seq<FileItem>, b: seq<FileItem>, known: set<string>)
    ensures NewItems(a + b, known) == NewItems(a, known) + NewItems(b, known)
    decreases |a|
  {
    if a == [] {
      assert a + b == b;
    } else {
      assert (a + b)[1..] == a[1..] + b;
      NewItemsAppend(a[1..], b, known);
    }
  }

  /** One item is kept exactly when its id is new. */
  lemma NewItemsSingle(x: FileItem, known: set<string>)
    ensures NewItems([x], known) == if x.id in known then [] else [x]
  {
    assert [x][1..] == [];
  }

  /** The chat's file items after a guest turn: the old ones in their order,
      then the retrieved ones that were not there yet. */
  function MergeFileItems(prev: seq<FileItem>, retrieved: seq<FileItem>): (r: seq<FileItem>)
    ensures |r| >= |prev| && r[..|prev|] == prev
    ensures r[|prev|..] == NewItems(retrieved, Ids(prev))
    ensures forall i :: |prev| <= i < |r| ==> r[i].id !in Ids(prev) && r[i] in retrieved
    ensures forall i :: 0 <= i < |retrieved| ==> retrieved[i].id in Ids(r)
  {
    var r := prev + NewItems(retrieved, Ids(prev));
    forall i | 0 <= i < |retrieved| ensures retrieved[i].id in Ids(r) {
      if retrieved[i].id in Ids(prev) {
        var j :| 0 <= j < |prev| && prev[j].id == retrieved[i].id;
        assert r[j] == prev[j];
      } else {
        var k :| 0 <= k < |NewItems(retrieved, Ids(prev))| && NewItems(retrieved, Ids(prev))[k] == retrieved[i];
        assert r[|prev| + k] == retrieved[i];
      }
    }
    r
  }

  /** The merge appends the new items in retrieval order, each as often as
      it was retrieved: merging two retrievals one after the other with the
      same known ids is merging their concatenation. */
  lemma MergeFileItemsOrder(prev: seq<FileItem>, a: seq<FileItem>, b: seq<FileItem>)
    ensures MergeFileItems(prev, a + b) == prev + NewItems(a, Ids(prev)) + NewItems(b, Ids(prev))
  {
    NewItemsAppend(a, b, Ids(prev));
  }

  /** Merging the same retrieval a second time adds nothing. */
  lemma MergeFileItemsIdempotent(prev: seq<FileItem>, retrieved: seq<FileItem>)
    ensures MergeFileItems(MergeFileItems(prev, retrieved), retrieved) == MergeFileItems(prev, retrieved)
  {
    var m := MergeFileItems(prev, retrieved);
    assert m + [] == m;
  }

  /** The ids of a list of file items, in order. */
  function ItemIds(items: seq<FileItem>): (r: seq<string>)
    ensures |r| == |items| && forall i :: 0 <= i < |items| ==> r[i] == items[i].id
  {
    if items == [] then [] else [items[0].id] + ItemIds(items[1..])
  }

  /** The guest list after a turn that regenerated the last answer. */
  function GuestRegenerated(chatMessages: seq<ChatMessage>, generatedText: string): seq<ChatMessage>
    requires chatMessages != []
  {
    WithLastContent(chatMessages, generatedText, false)
  }

  /** The two messages a guest turn stores. */
  function GuestUserMessage(id: string, chatId: string, userId: string, modelId: string,
                            messageContent: string, len: nat): ChatMessage
  {
    ChatMessage(Message(id, chatId, None, userId, messageContent, modelId, User, len, []), [])
  }

  function GuestAssistantMessage(id: string, chatId: string, userId: string, modelId: string,
                                 generatedText: string, selectedAssistant: Option<string>, len: nat,
                                 retrieved: seq<FileItem>): ChatMessage
  {
    ChatMessage(Message(id, chatId, AssistantIdOf(selectedAssistant), userId, generatedText, modelId,
                        Assistant, len + 1, []),
                ItemIds(retrieved))
  }

  /** A guest append turn keeps the old list, then the user message numbered
      `len` with the typed content, then the assistant message numbered
      `len + 1` with the generated text and the retrieved items' ids. */
  lemma GuestAppendShape(chatMessages: seq<ChatMessage>, userId: string, assistantId: string,
                         chatId: string, profileUserId: string, modelId: string,
                         messageContent: string, generatedText: string,
                         selectedAssistant: Option<string>, retrieved: seq<FileItem>)
    ensures var n := |chatMessages|;
      var r := chatMessages
        + [GuestUserMessage(userId, chatId, profileUserId, modelId, messageContent, n),
           GuestAssistantMessage(assistantId, chatId, profileUserId, modelId, generatedText, selectedAssistant, n, retrieved)];
      && |r| == n + 2 && r[..n] == chatMessages
      && r[n].message.sequenceNumber == n && r[n].message.content == messageContent && r[n].fileItems == []
      && r[n + 1].message.sequenceNumber == n + 1 && r[n + 1].message.content == generatedText
      && |r[n + 1].fileItems| == |retrieved|
      && (forall i :: 0 <= i < |retrieved| ==> r[n + 1].fileItems[i] == retrieved[i].id)
      && (Numbered(chatMessages) ==> Numbered(r))
  {
  }

  // ---------------------------------------------------------------------
  // The chat state the helpers update through React setters

  class ChatSession {
    var chatMessages: seq<ChatMessage>
    var isGenerating: bool
    var firstTokenReceived: bool
    var toolInUse: string
    var chatFileItems: seq<FileItem>

    constructor (chatMessages: seq<ChatMessage>, chatFileItems: seq<FileItem>)
      ensures this.chatMessages == chatMessages && this.chatFileItems == chatFileItems
      ensures !isGenerating && !firstTokenReceived && toolInUse == "none"
    {
      this.chatMessages := chatMessages;
      this.chatFileItems := chatFileItems;
      isGenerating := false;
      firstTokenReceived := false;
      toolInUse := "none";
    }

    /** `createTempMessages`: shows the turn before the answer arrives. A
        regeneration empties the last message; otherwise the temporary user
        and assistant messages are appended. Regenerating on an empty list
        throws before the list is set. */
    method CreateTempMessages(chatMessages: seq<ChatMessage>, messageContent: string, settings: ChatSettings,
                              b64Images: seq<string>, isRegeneration: bool, selectedAssistant: Option<string>,
                              userMessageId: string, assistantMessageId: string)
      returns (r: Result<(ChatMessage, ChatMessage), string>)
      modifies this
      ensures var user := TempUserMessage(userMessageId, messageContent, settings, b64Images, |chatMessages|);
        var assistant := TempAssistantMessage(assistantMessageId, settings, selectedAssistant, |chatMessages|);
        if isRegeneration && chatMessages == [] then
          r == Failure(UndefinedLastMessage) && this.chatMessages == old(this.chatMessages)
        else
          && r == Success((user, assistant))
          && this.chatMessages == if isRegeneration then WithLastContent(chatMessages, "", true)
                                  else chatMessages + [user, assistant]
      ensures isGenerating == old(isGenerating) && firstTokenReceived == old(firstTokenReceived)
      ensures toolInUse == old(toolInUse) && chatFileItems == old(chatFileItems)
    {
      var user := TempUserMessage(userMessageId, messageContent, settings, b64Images, |chatMessages|);
      var assistant := TempAssistantMessage(assistantMessageId, settings, selectedAssistant, |chatMessages|);
      if isRegeneration {
        if chatMessages == [] {
          return Failure(UndefinedLastMessage);
        }
        this.chatMessages := WithLastContent(chatMessages, "", true);
      } else {
        this.chatMessages := chatMessages + [user, assistant];
      }
      r := Success((user, assistant));
    }

    /** The status check of `fetchChatResponse`: a 2xx response is handed
        back untouched; any other response yields the text of its error
        toast, stops generating, drops the last two messages and fails. */
    method FetchChatResponse(response: HttpResponse, url: string, isHosted: bool)
      returns (r: Result<HttpResponse, string>, toast: Option<string>)
      modifies this
      ensures IsOk(response.status) ==>
        r == Success(response) && toast == None && unchanged(this)
      ensures !IsOk(response.status) ==>
        && r == Failure("Request failed with status " + NatToString(response.status))
        && toast == Some(StatusToast(response.status, isHosted, url, response.errorBody, response.retryAfter))
        && !isGenerating && chatMessages == DropLast(old(chatMessages), 2)
        && firstTokenReceived == old(firstTokenReceived) && toolInUse == old(toolInUse)
        && chatFileItems == old(chatFileItems)
    {
      if IsOk(response.status) {
        return Success(response), None;
      }
      toast := Some(StatusToast(response.status, isHosted, url, response.errorBody, response.retryAfter));
      isGenerating := false;
      chatMessages := DropLast(chatMessages, 2);
      r := Failure("Request failed with status " + NatToString(response.status));
    }

    /** `processResponse`: refuses a missing or locked body, reads the body
        to its end and, for every chunk, marks the first token as received,
        clears the tool in use, adds the chunk's contribution to `fullText`
        and writes `fullText` into the target message. Returns `fullText`,
        or the stream's failure (reworded when it is about a lock).

        The consumer's callback touches only this state and the reads touch
        only the stream, so the callback's effects are applied here in the
        order of the chunks after the reads. */
    method ProcessResponse(body: ReadableStream?, targetId: string, isHosted: bool, signal: AbortSignal,
                           decode: Bytes -> string, parseLine: string -> Option<string>)
      returns (r: Result<string, string>)
      modifies this, body, signal
      ensures body == null ==>
        r == Failure("Response body is null") && unchanged(this) && unchanged(signal)
      ensures body != null && old(body.locked) ==>
        r == Failure("Response body stream is already locked to a reader")
        && unchanged(this) && unchanged(body) && unchanged(signal)
      ensures body != null && !old(body.locked) ==>
        var c := Consume(old(body.steps), old(signal.aborted), decode);
        var text := FullText(c.delivered, isHosted, parseLine);
        && r == (if c.outcome.Fail? then Failure(RethrownMessage(c.outcome.error)) else Success(text))
        && chatMessages == (if c.delivered == [] then old(chatMessages) else UpdateTarget(old(chatMessages), targetId, text))
        && firstTokenReceived == (old(firstTokenReceived) || c.delivered != [])
        && toolInUse == (if c.delivered == [] then old(toolInUse) else "none")
        && isGenerating == old(isGenerating) && chatFileItems == old(chatFileItems)
        && signal.aborted == c.aborted && body.steps == c.rest
        && !body.locked && body.releases == old(body.releases) + 1
    {
      if body == null {
        return Failure("Response body is null");
      }
      if body.locked {
        return Failure("Response body stream is already locked to a reader");
      }
      var outcome, delivered := ConsumeReadableStream(body, signal, decode);
      var fullText := ReplayChunks(delivered, targetId, isHosted, parseLine);
      if outcome.Fail? {
        r := Failure(RethrownMessage(outcome.error));
      } else {
        r := Success(fullText);
      }
    }

    /** The callback of `processResponse`, invoked once per chunk in order:
        marks the first token as received, clears the tool in use, adds the
        chunk's contribution to `fullText` and writes `fullText` into the
        target message. The two flags are set once, after the chunks, to the
        value every invocation gives them. */
    method ReplayChunks(chunks: seq<string>, targetId: string, isHosted: bool,
                        parseLine: string -> Option<string>)
      returns (fullText: string)
      modifies this
      ensures fullText == FullText(chunks, isHosted, parseLine)
      ensures chatMessages == if chunks == [] then old(chatMessages) else UpdateTarget(old(chatMessages), targetId, fullText)
      ensures firstTokenReceived == (old(firstTokenReceived) || chunks != [])
      ensures toolInUse == if chunks == [] then old(toolInUse) else "none"
      ensures isGenerating == old(isGenerating) && chatFileItems == old(chatFileItems)
    {
      fullText := "";
      var messages := chatMessages;
      var i := 0;
      while i < |chunks|
        invariant 0 <= i <= |chunks|
        invariant fullText == FullText(chunks[..i], isHosted, parseLine)
        invariant messages == if i == 0 then old(chatMessages) else UpdateTarget(old(chatMessages), targetId, fullText)
        modifies {}
      {
        var contribution := ChunkContribution(chunks[i], isHosted, parseLine);
        ghost var before := fullText;
        if contribution.Some? {
          fullText := fullText + contribution.value;
        }
        FullTextStep(chunks, i, isHosted, parseLine);
        UpdateTargetOverwrites(old(chatMessages), targetId, before, fullText);
        messages := UpdateTarget(messages, targetId, fullText);
        i := i + 1;
      }
      assert chunks[..i] == chunks;
      if chunks != [] {
        firstTokenReceived := true;
        toolInUse := "none";
      }
      chatMessages := messages;
    }

    /** The guest branch of `handleCreateMessages`: a regeneration writes the
        generated text into the last message and drops its file items; an
        append stores the user and assistant messages and merges the
        retrieved file items into the chat's. Regenerating on an empty list
        throws before anything is set. */
    method HandleCreateMessagesGuest(chatMessages: seq<ChatMessage>, currentChatId: string, profileUserId: string,
                                     modelId: string, messageContent: string, generatedText: string,
                                     isRegeneration: bool, retrieved: seq<FileItem>,
                                     selectedAssistant: Option<string>,
                                     userMessageId: string, assistantMessageId: string)
      returns (r: Outcome<string>)
      modifies this
      ensures isRegeneration && chatMessages == [] ==> r == Fail(UndefinedLastMessage) && unchanged(this)
      ensures isRegeneration && chatMessages != [] ==>
        r == Pass && this.chatMessages == GuestRegenerated(chatMessages, generatedText)
        && chatFileItems == old(chatFileItems)
      ensures !isRegeneration ==>
        var n := |chatMessages|;
        && r == Pass
        && this.chatMessages == chatMessages
             + [GuestUserMessage(userMessageId, currentChatId, profileUserId, modelId, messageContent, n),
                GuestAssistantMessage(assistantMessageId, currentChatId, profileUserId, modelId, generatedText,
                                      selectedAssistant, n, retrieved)]
        && chatFileItems == MergeFileItems(old(chatFileItems), retrieved)
      ensures isGenerating == old(isGenerating) && firstTokenReceived == old(firstTokenReceived)
      ensures toolInUse == old(toolInUse)
    {
      if isRegeneration {
        if chatMessages == [] {
          return Fail(UndefinedLastMessage);
        }
        this.chatMessages := GuestRegenerated(chatMessages, generatedText);
      } else {
        var n := |chatMessages|;
        var user := GuestUserMessage(userMessageId, currentChatId, profileUserId, modelId, messageContent, n);
        var assistant := GuestAssistantMessage(assistantMessageId, currentChatId, profileUserId, modelId,
                                               generatedText, selectedAssistant, n, retrieved);
        this.chatMessages := chatMessages + [user, assistant];
        chatFileItems := MergeFileItems(chatFileItems, retrieved);
      }
      r := Pass;
    }
  }
}

=== FILE: chat_types.dfy ===
/** Records shared by the client helpers, the provider routes and the two
    selection components. */
module ChatTypes {
  import opened Wrappers
  import opened Text

  /** The per-chat generation settings. Temperature is a JavaScript number
      that the model only ever compares for equality, so a `real` stands for it. */
  datatype ChatSettings = ChatSettings(
    model: string,
    prompt: string,
    temperature: real,
    contextLength: int,
    includeProfileContext: bool,
    includeWorkspaceInstructions: bool,
    embeddingsProvider: string)

  /** A selectable language model. An empty `provider` is JavaScript's falsy provider. */
  datatype LLM = LLM(
    modelId: string,
    modelName: string,
    provider: string,
    hostedId: string,
    platformLink: string,
    imageInput: bool)

  /** What a provider SDK (or any code inside a route's `try`) throws.
      `message == ""` stands for a missing or empty `error.message`,
      `status == 0` for a missing `error.status`, and `retryAfter` for the
      parsed `retry-after` header, when there is one. */
  datatype ProviderError = ProviderError(message: string, status: nat, retryAfter: Option<nat>)

  /** The pair of locals (`errorCode`, `errorMessage`) an error chain computes. */
  datatype Classified = Classified(code: nat, message: string)

  /** What a provider route answers: a streamed body built from `request`, or
      a JSON body `{message, error}` with `status`. `error` is the raw
      `error.message`, present only in development. */
  datatype RouteResponse<Request> =
    | Streaming(request: Request)
    | JsonError(status: nat, message: string, error: Option<string>)

  /** `error.status || 500`. */
  function StatusOr500(status: nat): (code: nat)
    ensures status != 0 ==> code == status
    ensures status == 0 ==> code == 500
  {
    if status != 0 then status else 500
  }

  /** `error.message || fallback`. */
  function MessageOr(message: string, fallback: string): (r: string)
    ensures message != "" ==> r == message
    ensures message == "" ==> r == fallback
  {
    if message != "" then message else fallback
  }

  /** The JSON error response a route builds from a classified error. */
  function ErrorResponse<R>(c: Classified, e: ProviderError, isDevelopment: bool): (r: RouteResponse<R>)
    ensures r.JsonError? && r.status == c.code && r.message == c.message
    ensures r.error.Some? <==> isDevelopment
    ensures r.error.Some? ==> r.error.value == e.message
  {
    JsonError(c.code, c.message, if isDevelopment then Some(e.message) else None)
  }

  /** The two provider routes' 429 text for a `Retry-After` of `wait`
      seconds: the seconds, then `Math.ceil(wait / 60)` minutes, with no
      remainder of seconds. */
  function RouteWaitText(wait: nat): string {
    var minutes := CeilDiv(wait, 60);
    "Rate limit exceeded. Please wait " + NatToString(wait) + " seconds ("
      + NatToString(minutes) + " minute" + Plural(minutes) + ") before trying again."
  }

  /** The two routes' 429 text without a `Retry-After`. */
  const RouteWaitUnknown := "Rate limit exceeded. Please wait 1-2 minutes before trying again."

  /** The routes' 429 message. */
  function RouteRateLimitText(retryAfter: Option<nat>): string {
    if retryAfter.Some? then RouteWaitText(retryAfter.value) else RouteWaitUnknown
  }

  /** The minute count is rounded up: the minutes cover the wait, by less
      than a minute more, and the word is plural exactly when the wait
      exceeds one minute. */
  lemma RouteWaitMinutes(wait: nat)
    ensures var minutes := CeilDiv(wait, 60);
      && wait <= minutes * 60 < wait + 60
      && (Plural(minutes) == "s" <==> wait > 60)
  {
  }

  const MessageTooLong := "Message too long. Please reduce the message length or context size."

  /** The routes' fallback for an error without a message, and the text
      that replaces it in the answer. */
  const UnexpectedServerError := "An unexpected server error occurred"
  const UnexpectedRetry := "An unexpected error occurred while processing your request. Please try again."
}

=== FILE: consume_stream.dfy ===
/** `consumeReadableStream`: claims a byte stream with a reader, reads it to
    the end, hands every decoded chunk to a callback, swallows a read error
    only when the abort signal has fired, and releases the reader on every
    exit path.

    The source of the stream is a script of `Step`s: what each successive
    `reader.read()` resolves to, and whether the signal's abort event fires
    while that read is pending. The callback is represented by the ordered
    list of texts it is invoked with, which the method returns; a caller
    replays its own callback over that list. */
module ConsumeStream {
  import opened Wrappers

  newtype Byte = b: int | 0 <= b < 256
  type Bytes = seq<Byte>

  /** What one `await reader.read()` gives: `{done: false, value}` (with
      `value` possibly undefined), `{done: true}`, or a rejection. */
  datatype ReadResult =
    | Chunk(value: Option<Bytes>)
    | Done
    | ReadError(message: string)

  /** One read, and whether the abort event fires while it is pending. */
  datatype Step = Step(abortFires: bool, result: ReadResult)

  const LockedMessage := "ReadableStream is already locked to a reader"

  class AbortSignal {
    var aborted: bool

    constructor (aborted: bool)
      ensures this.aborted == aborted
    {
      this.aborted := aborted;
    }
  }

  /** A response body: whether a reader holds it, what its reads will give
      from now on, and how often a reader cancelled or released it. */
  class ReadableStream {
    var locked: bool
    var steps: seq<Step>
    var cancelRequests: nat
    var releases: nat

    constructor (steps: seq<Step>)
      ensures !locked && this.steps == steps && cancelRequests == 0 && releases == 0
    {
      locked := false;
      this.steps := steps;
      cancelRequests := 0;
      releases := 0;
    }

    /** `stream.getReader()`: claims the stream. */
    method GetReader()
      requires !locked
      modifies this
      ensures locked && steps == old(steps)
      ensures cancelRequests == old(cancelRequests) && releases == old(releases)
    {
      locked := true;
    }

    /** `reader.read()`: the next step of the script; a source with nothing
        left reports `done`. */
    method Read() returns (step: Step)
      requires locked
      modifies this
      ensures old(steps) == [] ==> step == Step(false, Done) && steps == []
      ensures old(steps) != [] ==> step == old(steps)[0] && steps == old(steps)[1..]
      ensures locked && cancelRequests == old(cancelRequests) && releases == old(releases)
    {
      if steps == [] {
        step := Step(false, Done);
      } else {
        step := steps[0];
        steps := steps[1..];
      }
    }

    /** `reader.cancel()`, as the abort listener calls it. */
    method Cancel()
      modifies this
      ensures cancelRequests == old(cancelRequests) + 1
      ensures locked == old(locked) && steps == old(steps) && releases == old(releases)
    {
      cancelRequests := cancelRequests + 1;
    }

    /** `reader.releaseLock()`. */
    method ReleaseLock()
      modifies this
      ensures !locked && releases == old(releases) + 1
      ensures steps == old(steps) && cancelRequests == old(cancelRequests)
    {
      locked := false;
      releases := releases + 1;
    }
  }

  /** What a run of the read loop produces: the outcome (returns or throws),
      the texts handed to the callback, the signal's final state, the number
      of cancel requests, and what is left of the source. */
  datatype Consumption = Consumption(
    outcome: Outcome<string>,
    delivered: seq<string>,
    aborted: bool,
    cancels: nat,
    rest: seq<Step>)

  /** The read loop over a script, starting with the signal in state `aborted`. */
  function Consume(steps: seq<Step>, aborted: bool, decode: Bytes -> string): Consumption
    decreases |steps|
  {
    if steps == [] then Consumption(Pass, [], aborted, 0, [])
    else
      var fires := steps[0].abortFires && !aborted;
      var nowAborted := aborted || steps[0].abortFires;
      var cancel := if fires then 1 else 0;
      match steps[0].result
      case Done => Consumption(Pass, [], nowAborted, cancel, steps[1..])
      case ReadError(m) => Consumption(if nowAborted then Pass else Fail(m), [], nowAborted, cancel, steps[1..])
      case Chunk(v) =>
        var tail := Consume(steps[1..], nowAborted, decode);
        Consumption(tail.outcome, (if v.Some? then [decode(v.value)] else []) + tail.delivered,
                    tail.aborted, cancel + tail.cancels, tail.rest)
  }

  /** Number of leading reads that deliver a chunk (before `done` or an error). */
  function ChunkRun(steps: seq<Step>): (n: nat)
    ensures n <= |steps|
    ensures forall i :: 0 <= i < n ==> steps[i].result.Chunk?
    ensures n < |steps| ==> !steps[n].result.Chunk?
  {
    if steps == [] || !steps[0].result.Chunk? then 0 else 1 + ChunkRun(steps[1..])
  }

  /** The values present among the chunk reads of `steps`, decoded, in order. */
  function DecodedValues(steps: seq<Step>, decode: Bytes -> string): seq<string>
    requires forall i :: 0 <= i < |steps| ==> steps[i].result.Chunk?
  {
    if steps == [] then []
    else
      var v := steps[0].result.value;
      (if v.Some? then [decode(v.value)] else []) + DecodedValues(steps[1..], decode)
  }

  /** The signal is aborted once any of the first `k` reads has seen the abort event fire. */
  predicate AbortedWithin(steps: seq<Step>, k: nat, aborted: bool)
    requires k <= |steps|
  {
    aborted || exists j :: 0 <= j < k && steps[j].abortFires
  }

  /** The callback receives the decoded value of every chunk read that has a
      value, in arrival order, up to the first `done` or error; a chunk read
      without a value is skipped. */
  lemma {:induction false} DeliveredInOrder(steps: seq<Step>, aborted: bool, decode: Bytes -> string)
    ensures Consume(steps, aborted, decode).delivered == DecodedValues(steps[..ChunkRun(steps)], decode)
    decreases |steps|
  {
    if steps != [] && steps[0].result.Chunk? {
      DeliveredInOrder(steps[1..], aborted || steps[0].abortFires, decode);
      assert steps[..ChunkRun(steps)][1..] == steps[1..][..ChunkRun(steps[1..])];
    }
  }

  /** The loop ends at the first read that is not a chunk. It returns normally
      when that read reports `done` or the source is exhausted; it throws the
      read's error exactly when that read is rejected and the signal has not
      been aborted by then. */
  lemma {:induction false} OutcomeOfConsume(steps: seq<Step>, aborted: bool, decode: Bytes -> string)
    ensures var n := ChunkRun(steps);
      Consume(steps, aborted, decode).outcome ==
        if n < |steps| && steps[n].result.ReadError? && !AbortedWithin(steps, n + 1, aborted)
        then Fail(steps[n].result.message) else Pass
    decreases |steps|
  {
    if steps != [] && steps[0].result.Chunk? {
      var now := aborted || steps[0].abortFires;
      OutcomeOfConsume(steps[1..], now, decode);
      var n := ChunkRun(steps);
      if n < |steps| {
        assert steps[1..][n - 1] == steps[n];
        assert AbortedWithin(steps[1..], n, now) <==> AbortedWithin(steps, n + 1, aborted) by {
          if AbortedWithin(steps[1..], n, now) && !now {
            var j :| 0 <= j < n && steps[1..][j].abortFires;
            assert steps[j + 1].abortFires;
          }
          if AbortedWithin(steps, n + 1, aborted) && !aborted {
            var j :| 0 <= j < n + 1 && steps[j].abortFires;
            if j > 0 { assert steps[1..][j - 1].abortFires; }
          }
        }
      }
    } else if steps != [] {
      assert AbortedWithin(steps, 1, aborted) <==> aborted || steps[0].abortFires;
    }
  }

  /** The abort listener is registered once: a run requests cancellation at
      most once, and never when the signal was already aborted. */
  lemma {:induction false} CancelAtMostOnce(steps: seq<Step>, aborted: bool, decode: Bytes -> string)
    ensures Consume(steps, aborted, decode).cancels <= 1
    ensures aborted ==> Consume(steps, aborted, decode).cancels == 0 && Consume(steps, aborted, decode).aborted
    ensures Consume(steps, aborted, decode).cancels == 1 <==> !aborted && Consume(steps, aborted, decode).aborted
    decreases |steps|
  {
    if steps != [] && steps[0].result.Chunk? {
      CancelAtMostOnce(steps[1..], aborted || steps[0].abortFires, decode);
    }
  }

  /** One read of the loop: a source with nothing left behaves like a read that reports `done`. */
  lemma ConsumeOneRead(steps: seq<Step>, aborted: bool, decode: Bytes -> string)
    ensures var c := Consume(steps, aborted, decode);
      var s := if steps == [] then Step(false, Done) else steps[0];
      var rest := if steps == [] then [] else steps[1..];
      var now := aborted || s.abortFires;
      var cancel := if s.abortFires && !aborted then 1 else 0;
      match s.result
      case Done => c == Consumption(Pass, [], now, cancel, rest)
      case ReadError(m) => c == Consumption(if now then Pass else Fail(m), [], now, cancel, rest)
      case Chunk(v) =>
        var t := Consume(rest, now, decode);
        c == Consumption(t.outcome, (if v.Some? then [decode(v.value)] else []) + t.delivered,
                         t.aborted, cancel + t.cancels, t.rest)
  {
  }

  /** A run that continues after `delivered` texts and `cancels` cancel
      requests have already happened. */
  function Continued(c: Consumption, delivered: seq<string>, cancels: nat): Consumption {
    Consumption(c.outcome, delivered + c.delivered, c.aborted, cancels + c.cancels, c.rest)
  }

  /** A chunk read moves its decoded value (if any) and its cancel request
      (if any) from the rest of the run into what has happened. */
  lemma ChunkAdvance(steps: seq<Step>, aborted: bool, decode: Bytes -> string,
                     delivered: seq<string>, cancels: nat)
    requires steps != [] && steps[0].result.Chunk?
    ensures var v := steps[0].result.value;
      var now := aborted || steps[0].abortFires;
      Continued(Consume(steps, aborted, decode), delivered, cancels)
      == Continued(Consume(steps[1..], now, decode),
                   delivered + (if v.Some? then [decode(v.value)] else []),
                   cancels + if steps[0].abortFires && !aborted then 1 else 0)
  {
    var v := steps[0].result.value;
    var now := aborted || steps[0].abortFires;
    var t := Consume(steps[1..], now, decode);
    var d := if v.Some? then [decode(v.value)] else [];
    assert delivered + (d + t.delivered) == (delivered + d) + t.delivered;
  }

  /** One `await reader.read()`, during which the abort event may fire; the
      `once` listener, while still registered, cancels the reader. */
  method ReadOnce(stream: ReadableStream, signal: AbortSignal, listening: bool)
    returns (step: Step, stillListening: bool)
    requires stream.locked
    requires !signal.aborted ==> listening
    modifies stream, signal
    ensures step == if old(stream.steps) == [] then Step(false, Done) else old(stream.steps)[0]
    ensures stream.steps == if old(stream.steps) == [] then [] else old(stream.steps)[1..]
    ensures signal.aborted == (old(signal.aborted) || step.abortFires)
    ensures stream.cancelRequests ==
      old(stream.cancelRequests) + if step.abortFires && !old(signal.aborted) then 1 else 0
    ensures !signal.aborted ==> stillListening
    ensures stream.locked && stream.releases == old(stream.releases)
  {
    step := stream.Read();
    stillListening := listening;
    if step.abortFires && !signal.aborted {
      signal.aborted := true;
      if listening {
        stillListening := false;
        stream.Cancel();
      }
    }
  }

  /** `consumeReadableStream(stream, callback, signal)`. Returns how the call
      ends and the texts the callback was invoked with, in order. */
  method ConsumeReadableStream(stream: ReadableStream, signal: AbortSignal, decode: Bytes -> string)
    returns (outcome: Outcome<string>, delivered: seq<string>)
    modifies stream, signal
    ensures old(stream.locked) ==>
      outcome == Fail(LockedMessage) && delivered == [] && unchanged(stream) && unchanged(signal)
    ensures !old(stream.locked) ==>
      var c := Consume(old(stream.steps), old(signal.aborted), decode);
      && outcome == c.outcome && delivered == c.delivered
      && signal.aborted == c.aborted && stream.steps == c.rest
      && stream.cancelRequests == old(stream.cancelRequests) + c.cancels
      && !stream.locked && stream.releases == old(stream.releases) + 1
  {
    if stream.locked {
      return Fail(LockedMessage), [];
    }
    stream.GetReader();
    outcome, delivered := ReadLoop(stream, signal, decode);
    // finally
    stream.ReleaseLock();
  }

  /** The `try` block: reads until `done`, handing each chunk on, with the
      abort listener registered once; the `catch` block swallows a read
      error when the signal is aborted. */
  method ReadLoop(stream: ReadableStream, signal: AbortSignal, decode: Bytes -> string)
    returns (outcome: Outcome<string>, delivered: seq<string>)
    requires stream.locked
    modifies stream, signal
    ensures var c := Consume(old(stream.steps), old(signal.aborted), decode);
      && outcome == c.outcome && delivered == c.delivered
      && signal.aborted == c.aborted && stream.steps == c.rest
      && stream.cancelRequests == old(stream.cancelRequests) + c.cancels
      && stream.locked && stream.releases == old(stream.releases)
  {
    ghost var whole := Consume(stream.steps, signal.aborted, decode);
    ghost var cancels0 := stream.cancelRequests;
    ghost var cancelled: nat := 0;
    // The `once` abort listener: still registered until it has fired.
    var listening := true;
    outcome, delivered := Pass, [];
    var finished := false;
    while !finished
      invariant stream.locked && stream.releases == old(stream.releases)
      invariant stream.cancelRequests == cancels0 + cancelled
      invariant !signal.aborted ==> listening
      invariant !finished ==> outcome == Pass
      invariant !finished ==> whole == Continued(Consume(stream.steps, signal.aborted, decode), delivered, cancelled)
      invariant finished ==> whole == Consumption(outcome, delivered, signal.aborted, cancelled, stream.steps)
      decreases !finished, |stream.steps|
    {
      ghost var before, a0 := stream.steps, signal.aborted;
      var step;
      step, listening := ReadOnce(stream, signal, listening);
      cancelled := cancelled + if step.abortFires && !a0 then 1 else 0;
      match step.result
      case Done =>
        finished := true;
        ConsumeOneRead(before, a0, decode);
        assert delivered + [] == delivered;
      case ReadError(m) =>
        // catch: an aborted signal turns the error into a normal return
        outcome := if signal.aborted then Pass else Fail(m);
        finished := true;
        ConsumeOneRead(before, a0, decode);
        assert delivered + [] == delivered;
      case Chunk(v) =>
        ChunkAdvance(before, a0, decode, delivered, cancelled - if step.abortFires && !a0 then 1 else 0);
        if v.Some? {
          delivered := delivered + [decode(v.value)];
        } else {
          assert delivered + [] == delivered;
        }
    }
  }
}

=== FILE: keyword_table.dfy ===
/** The keyword tables the error classifiers use: an `if / else if` chain of
    `lowered.includes(k1) || lowered.includes(k2) ...` tests, each branch
    assigning a fixed user-facing text. A chain is written here as an ordered
    list of rules; the first rule with a keyword in the text decides. */
module KeywordTable {
  import opened Wrappers
  import opened Text

  datatype Rule = Rule(keywords: seq<string>, text: string)

  /** Some keyword of `rule` occurs in `lowered`. */
  predicate Matches(rule: Rule, lowered: string) {
    exists k :: 0 <= k < |rule.keywords| && Contains(lowered, rule.keywords[k])
  }

  /** The keywords tried left to right, as the `||` chain evaluates them. */
  predicate AnyKeyword(keywords: seq<string>, lowered: string)
    ensures AnyKeyword(keywords, lowered) <==> Matches(Rule(keywords, ""), lowered)
  {
    if keywords == [] then false
    else Contains(lowered, keywords[0]) || AnyKeyword(keywords[1..], lowered)
  }

  /** The text of the first rule that matches, if any. */
  function FirstMatch(rules: seq<Rule>, lowered: string): (r: Option<string>)
    ensures r.Some? ==> exists i :: 0 <= i < |rules| && r.value == rules[i].text
  {
    if rules == [] then None
    else if AnyKeyword(rules[0].keywords, lowered) then Some(rules[0].text)
    else FirstMatch(rules[1..], lowered)
  }

  /** `FirstMatch` answers with the text of the earliest matching rule, and
      answers nothing exactly when no rule matches. */
  lemma {:induction false} FirstMatchSpec(rules: seq<Rule>, lowered: string)
    ensures FirstMatch(rules, lowered).None? <==> forall i :: 0 <= i < |rules| ==> !Matches(rules[i], lowered)
    ensures FirstMatch(rules, lowered).Some? ==>
      exists i :: 0 <= i < |rules| && Matches(rules[i], lowered) && FirstMatch(rules, lowered).value == rules[i].text
        && forall j :: 0 <= j < i ==> !Matches(rules[j], lowered)
  {
    if rules != [] && !AnyKeyword(rules[0].keywords, lowered) {
      FirstMatchSpec(rules[1..], lowered);
      var r := FirstMatch(rules[1..], lowered);
      assert !Matches(rules[0], lowered);
      forall j | 1 <= j < |rules| ensures rules[j] == rules[1..][j - 1] { }
      if r.Some? {
        var i :| 0 <= i < |rules[1..]| && Matches(rules[1..][i], lowered) && r.value == rules[1..][i].text
          && forall j :: 0 <= j < i ==> !Matches(rules[1..][j], lowered);
        assert Matches(rules[i + 1], lowered);
      }
    } else if rules != [] {
      assert Matches(rules[0], lowered);
    }
  }

  /** Rule `i` is the one an `if / else if` chain takes: it matches and no
      earlier rule does. */
  predicate Decides(rules: seq<Rule>, lowered: string, i: int) {
    && 0 <= i < |rules| && Matches(rules[i], lowered)
    && forall j :: 0 <= j < i ==> !Matches(rules[j], lowered)
  }

  /** No rule of the chain matches, so it falls through. */
  predicate NoRuleMatches(rules: seq<Rule>, lowered: string) {
    forall i :: 0 <= i < |rules| ==> !Matches(rules[i], lowered)
  }

  /** The chain's answer, rule by rule: the deciding rule's text, or
      nothing when it falls through. */
  lemma FirstMatchDecides(rules: seq<Rule>, lowered: string)
    ensures forall i :: Decides(rules, lowered, i) ==> FirstMatch(rules, lowered) == Some(rules[i].text)
    ensures NoRuleMatches(rules, lowered) ==> FirstMatch(rules, lowered) == None
  {
    forall i | Decides(rules, lowered, i) ensures FirstMatch(rules, lowered) == Some(rules[i].text) {
      FirstMatchAt(rules, lowered, i);
    }
    FirstMatchSpec(rules, lowered);
  }

  /** The rule at position `i` decides exactly when it matches and no earlier rule does. */
  lemma FirstMatchAt(rules: seq<Rule>, lowered: string, i: nat)
    requires i < |rules| && Matches(rules[i], lowered)
    requires forall j :: 0 <= j < i ==> !Matches(rules[j], lowered)
    ensures FirstMatch(rules, lowered) == Some(rules[i].text)
  {
    FirstMatchSpec(rules, lowered);
    var r := FirstMatch(rules, lowered);
    var k :| 0 <= k < |rules| && Matches(rules[k], lowered) && r.value == rules[k].text
      && forall j :: 0 <= j < k ==> !Matches(rules[j], lowered);
    assert k == i;
  }
}

=== FILE: model_select_button.dfy ===
/** The model picker: every known model in one list, grouped by provider in
    the order providers first appear, the model the chat currently uses,
    the search over model names, and what picking a model changes. */
module ModelSelectButton {
  import opened Wrappers
  import opened Text
  import opened ChatTypes

  /** A user-defined model as stored: its row id, the id sent to the
      provider, and its display name. */
  datatype CustomModel = CustomModel(id: string, modelId: string, name: string)

  /** A possibly missing list (`undefined` or `null`) read as `list || []`. */
  function OrEmpty<T>(l: Option<seq<T>>): seq<T> {
    if l.Some? then l.value else []
  }

  function AsLLM(c: CustomModel): LLM {
    LLM(c.modelId, c.name, "custom", c.id, "", false)
  }

  function CustomAsLLM(cs: seq<CustomModel>): (r: seq<LLM>)
    ensures |r| == |cs|
    ensures forall i :: 0 <= i < |cs| ==> r[i] == AsLLM(cs[i])
  {
    seq(|cs|, i requires 0 <= i < |cs| => AsLLM(cs[i]))
  }

  /** The custom models first, each presented as a model of provider
      `"custom"` without image input, then the hosted, local and OpenRouter
      models unchanged; a missing list contributes nothing. */
  function AllModels(custom: Option<seq<CustomModel>>, hosted: Option<seq<LLM>>,
                     local: Option<seq<LLM>>, openRouter: Option<seq<LLM>>): (r: seq<LLM>)
    ensures |r| == |OrEmpty(custom)| + |OrEmpty(hosted)| + |OrEmpty(local)| + |OrEmpty(openRouter)|
    ensures forall i :: 0 <= i < |OrEmpty(custom)| ==>
      && r[i].provider == "custom" && !r[i].imageInput && r[i].platformLink == ""
      && r[i].modelId == OrEmpty(custom)[i].modelId && r[i].modelName == OrEmpty(custom)[i].name
      && r[i].hostedId == OrEmpty(custom)[i].id
    ensures r[|OrEmpty(custom)|..] == OrEmpty(hosted) + OrEmpty(local) + OrEmpty(openRouter)
  {
    var cs := CustomAsLLM(OrEmpty(custom));
    var r := cs + OrEmpty(hosted) + OrEmpty(local) + OrEmpty(openRouter);
    assert r[|cs|..] == OrEmpty(hosted) + OrEmpty(local) + OrEmpty(openRouter);
    r
  }

  // ---------------------------------------------------------------------
  // Grouping by provider

  /** The models of provider `p`, in list order. */
  function WithProvider(models: seq<LLM>, p: string): (r: seq<LLM>)
    ensures |r| <= |models|
  {
    if models == [] then []
    else
      var last := models[|models| - 1];
      WithProvider(models[..|models| - 1], p) + (if last.provider == p then [last] else [])
  }

  /** A group holds exactly the models of its provider. */
  lemma {:induction false} WithProviderMembers(models: seq<LLM>, p: string)
    ensures forall m :: m in WithProvider(models, p) <==> m in models && m.provider == p
  {
    if models != [] {
      var init := models[..|models| - 1];
      assert models == init + [models[|models| - 1]];
      WithProviderMembers(init, p);
    }
  }

  /** A group keeps list order, each model as often as it is listed:
      grouping a concatenation concatenates the groups of its parts. */
  lemma {:induction false} WithProviderAppend(a: seq<LLM>, b: seq<LLM>, p: string)
    ensures WithProvider(a + b, p) == WithProvider(a, p) + WithProvider(b, p)
    decreases |b|
  {
    if b == [] {
      assert a + b == a;
    } else {
      var init := b[..|b| - 1];
      assert (a + b)[..|a + b| - 1] == a + init;
      assert (a + b)[|a + b| - 1] == b[|b| - 1];
      WithProviderAppend(a, init, p);
    }
  }

  /** A single model is in its provider's group and in no other. */
  lemma WithProviderSingle(m: LLM, p: string)
    ensures WithProvider([m], p) == if m.provider == p then [m] else []
  {
    assert [m][..0] == [];
  }

  /** The non-empty providers, each once, in the order they first appear. */
  function Providers(models: seq<LLM>): seq<string> {
    if models == [] then []
    else
      var ps := Providers(models[..|models| - 1]);
      var last := models[|models| - 1];
      if last.provider != "" && last.provider !in ps then ps + [last.provider] else ps
  }

  /** The keys are exactly the non-empty providers present. */
  lemma {:induction false} ProvidersMembers(models: seq<LLM>)
    ensures forall p :: p in Providers(models) <==> p != "" && exists m :: m in models && m.provider == p
  {
    if models != [] {
      var init := models[..|models| - 1];
      var last := models[|models| - 1];
      assert models == init + [last];
      ProvidersMembers(init);
      var ps := Providers(init);
      forall p
        ensures p in Providers(models) <==> p != "" && exists m :: m in models && m.provider == p
      {
        if p != "" && exists m :: m in models && m.provider == p {
          var m :| m in models && m.provider == p;
          if m != last {
            assert m in init;
          }
        }
        if p in ps {
          var m :| m in init && m.provider == p;
          assert m in models;
        }
      }
    }
  }

  /** No key is listed twice. */
  predicate Distinct(keys: seq<string>) {
    forall i, j :: 0 <= i < j < |keys| ==> keys[i] != keys[j]
  }

  /** No provider is listed twice among the keys. */
  lemma {:induction false} ProvidersDistinct(models: seq<LLM>)
    ensures Distinct(Providers(models))
  {
    if models != [] {
      var init := models[..|models| - 1];
      var last := models[|models| - 1];
      ProvidersDistinct(init);
      var ps := Providers(init);
      if last.provider != "" && last.provider !in ps {
        var qs := ps + [last.provider];
        assert Providers(models) == qs;
        forall i, j | 0 <= i < j < |qs| ensures qs[i] != qs[j] {
          assert qs[i] == ps[i] && ps[i] in ps;
          if j < |ps| {
            assert qs[j] == ps[j];
          }
        }
      }
    }
  }

  /** The empty provider is never a key. */
  lemma {:induction false} NoEmptyProvider(models: seq<LLM>)
    ensures "" !in Providers(models)
  {
    if models != [] {
      NoEmptyProvider(models[..|models| - 1]);
    }
  }

  /** A provider that does not appear has no models. */
  lemma AbsentProviderEmpty(models: seq<LLM>, p: string)
    requires p != "" && p !in Providers(models)
    ensures WithProvider(models, p) == []
  {
    WithProviderMembers(models, p);
    ProvidersMembers(models);
    var r := WithProvider(models, p);
    assert forall m :: m !in r;
  }

  /** `keys` and `groups` are the reduce's result over `models`: the keys
      are the providers in first-appearance order, and each key's group
      holds its models. */
  ghost predicate Grouped(models: seq<LLM>, keys: seq<string>, groups: map<string, seq<LLM>>) {
    && keys == Providers(models)
    && (forall p :: p in groups <==> p in keys)
    && (forall p :: p in groups ==> groups[p] == WithProvider(models, p))
  }

  /** The keys after the reduce has met `m`. */
  function AddKey(keys: seq<string>, groups: map<string, seq<LLM>>, m: LLM): seq<string> {
    if m.provider != "" && m.provider !in groups then keys + [m.provider] else keys
  }

  /** The groups after the reduce has met `m`: `m` pushed onto its
      provider's group, created empty when first met. */
  function AddToGroup(groups: map<string, seq<LLM>>, m: LLM): map<string, seq<LLM>> {
    if m.provider == "" then groups
    else groups[m.provider := (if m.provider in groups then groups[m.provider] else []) + [m]]
  }

  /** The `reduce` over all models: a model with a provider is pushed onto
      its provider's group, which is created when first met. Returns the
      groups' keys in creation order (the order `Object.entries` lists
      them) beside the groups. */
  method GroupModels(models: seq<LLM>) returns (keys: seq<string>, groups: map<string, seq<LLM>>)
    ensures keys == Providers(models)
    ensures forall p :: p in groups <==> p in keys
    ensures forall p :: p in groups ==> groups[p] == WithProvider(models, p)
  {
    keys := [];
    groups := map[];
    for i := 0 to |models|
      invariant Grouped(models[..i], keys, groups)
    {
      var m := models[i];
      GroupedStep(models, i, keys, groups);
      if m.provider != "" {
        var group := if m.provider in groups then groups[m.provider] else [];
        if m.provider !in groups {
          keys := keys + [m.provider];
        }
        groups := groups[m.provider := group + [m]];
      }
    }
    assert models[..|models|] == models;
  }

  /** One pass of the reduce keeps the keys and groups those of the models seen. */
  lemma GroupedStep(models: seq<LLM>, i: nat, keys: seq<string>, groups: map<string, seq<LLM>>)
    requires i < |models| && Grouped(models[..i], keys, groups)
    ensures Grouped(models[..i + 1], AddKey(keys, groups, models[i]), AddToGroup(groups, models[i]))
  {
    var m := models[i];
    var keys', groups' := AddKey(keys, groups, m), AddToGroup(groups, m);
    GroupStep(models, i);
    NoEmptyProvider(models[..i]);
    assert keys' == Providers(models[..i + 1]);
    forall p | p in groups'
      ensures groups'[p] == WithProvider(models[..i + 1], p)
    {
      if p != m.provider {
        assert groups'[p] == groups[p];
      } else if p in groups {
        assert groups'[p] == groups[p] + [m];
      } else {
        AbsentProviderEmpty(models[..i], p);
        assert groups'[p] == [m];
      }
    }
  }

  /** One more model extends its provider's group, and adds its provider to
      the keys when it is new. */
  lemma GroupStep(models: seq<LLM>, i: nat)
    requires i < |models|
    ensures forall p :: (WithProvider(models[..i + 1], p)
      == WithProvider(models[..i], p) + (if models[i].provider == p then [models[i]] else []))
    ensures Providers(models[..i + 1])
      == if models[i].provider != "" && models[i].provider !in Providers(models[..i])
         then Providers(models[..i]) + [models[i].provider] else Providers(models[..i])
  {
    assert models[..i + 1][..i] == models[..i];
  }

  /** The models that have a provider. */
  function Named(models: seq<LLM>): (r: seq<LLM>)
    ensures forall m :: m in r <==> m in models && m.provider != ""
  {
    if models == [] then []
    else
      var last := models[|models| - 1];
      Named(models[..|models| - 1]) + (if last.provider != "" then [last] else [])
  }

  /** The total size of the groups named by `keys`. */
  function GroupSizes(keys: seq<string>, models: seq<LLM>): nat {
    if keys == [] then 0
    else GroupSizes(keys[..|keys| - 1], models) + |WithProvider(models, keys[|keys| - 1])|
  }

  /** Appending one model grows the groups' total by one exactly when its
      provider is among the (distinct) keys. */
  lemma {:induction false} GroupSizesSnoc(keys: seq<string>, models: seq<LLM>, m: LLM)
    requires Distinct(keys)
    ensures GroupSizes(keys, models + [m]) == GroupSizes(keys, models) + (if m.provider in keys then 1 else 0)
  {
    assert (models + [m])[..|models|] == models;
    if keys != [] {
      var init := keys[..|keys| - 1];
      GroupSizesSnoc(init, models, m);
      assert keys == init + [keys[|keys| - 1]];
      assert m.provider in keys <==> m.provider in init || m.provider == keys[|keys| - 1];
    }
  }

  /** Every model with a provider lands in exactly one group: the groups'
      sizes add up to the number of such models. */
  lemma {:induction false} GroupsPartition(models: seq<LLM>)
    ensures GroupSizes(Providers(models), models) == |Named(models)|
  {
    if models != [] {
      var init := models[..|models| - 1];
      var m := models[|models| - 1];
      assert models == init + [m];
      GroupsPartition(init);
      ProvidersDistinct(init);
      NoEmptyProvider(init);
      var ps := Providers(init);
      GroupSizesSnoc(ps, init, m);
      assert Named(models) == Named(init) + (if m.provider != "" then [m] else []);
      if m.provider != "" && m.provider !in ps {
        AbsentProviderEmpty(init, m.provider);
        assert Providers(models) == ps + [m.provider];
        assert (ps + [m.provider])[..|ps|] == ps;
      } else {
        assert Providers(models) == ps;
      }
    }
  }

  // ---------------------------------------------------------------------
  // The selected model and the search

  /** The first model whose id is the chat's model, if any. */
  function FindModel(models: seq<LLM>, modelId: string): (r: Option<LLM>)
    ensures r.None? <==> forall m :: m in models ==> m.modelId != modelId
    ensures r.Some? ==> exists i :: (0 <= i < |models| && models[i] == r.value && r.value.modelId == modelId
      && forall j :: 0 <= j < i ==> models[j].modelId != modelId)
  {
    if models == [] then None
    else if models[0].modelId == modelId then Some(models[0])
    else
      var r := FindModel(models[1..], modelId);
      assert forall j :: 1 <= j < |models| ==> models[j] == models[1..][j - 1];
      r
  }

  /** A group's models with a provider whose lower-cased name contains the
      lower-cased search, in group order. */
  function Visible(group: seq<LLM>, search: string): (r: seq<LLM>)
    ensures |r| <= |group|
    ensures forall m :: m in r <==> m in group && m.provider != "" && Contains(ToLower(m.modelName), ToLower(search))
  {
    if group == [] then []
    else
      var m := group[0];
      (if m.provider != "" && Contains(ToLower(m.modelName), ToLower(search)) then [m] else [])
        + Visible(group[1..], search)
  }

  /** A provider's section in the menu: hidden when nothing in the group
      passes the search, otherwise the passing models that have an id. */
  function Section(group: seq<LLM>, search: string): (r: Option<seq<LLM>>)
    ensures r.None? <==> Visible(group, search) == []
    ensures r.Some? ==> forall m :: m in r.value <==> m in Visible(group, search) && m.modelId != ""
  {
    var v := Visible(group, search);
    if v == [] then None else Some(WithId(v))
  }

  function WithId(models: seq<LLM>): (r: seq<LLM>)
    ensures forall m :: m in r <==> m in models && m.modelId != ""
  {
    if models == [] then []
    else (if models[0].modelId != "" then [models[0]] else []) + WithId(models[1..])
  }

  /** The search keeps group order, each model as often as it is listed;
      so does the id filter. */
  lemma {:induction false} VisibleAppend(a: seq<LLM>, b: seq<LLM>, search: string)
    ensures Visible(a + b, search) == Visible(a, search) + Visible(b, search)
    decreases |a|
  {
    if a == [] {
      assert a + b == b;
    } else {
      assert (a + b)[1..] == a[1..] + b;
      VisibleAppend(a[1..], b, search);
    }
  }

  lemma {:induction false} WithIdAppend(a: seq<LLM>, b: seq<LLM>)
    ensures WithId(a + b) == WithId(a) + WithId(b)
    decreases |a|
  {
    if a == [] {
      assert a + b == b;
    } else {
      assert (a + b)[1..] == a[1..] + b;
      WithIdAppend(a[1..], b);
    }
  }

  /** A single model is shown when it has a provider and its lower-cased
      name contains the lower-cased search, and listed when it also has an id. */
  lemma SectionSingle(m: LLM, search: string)
    ensures Visible([m], search)
      == if m.provider != "" && Contains(ToLower(m.modelName), ToLower(search)) then [m] else []
    ensures WithId([m]) == if m.modelId != "" then [m] else []
  {
    assert [m][1..] == [];
  }

  /** A shown section lists its models in group order: the section of a
      group split in two is the listed models of the first part followed
      by those of the second. */
  lemma SectionOrder(a: seq<LLM>, b: seq<LLM>, search: string)
    requires Section(a + b, search).Some?
    ensures Section(a + b, search).value == WithId(Visible(a, search)) + WithId(Visible(b, search))
  {
    VisibleAppend(a, b, search);
    WithIdAppend(Visible(a, search), Visible(b, search));
  }

  /** An empty search hides nothing: a provider's group is shown in full. */
  lemma {:induction false} EmptySearchShowsGroup(models: seq<LLM>, p: string)
    requires p != ""
    ensures Visible(WithProvider(models, p), "") == WithProvider(models, p)
  {
    WithProviderMembers(models, p);
    VisibleEmptySearch(WithProvider(models, p));
  }

  lemma {:induction false} VisibleEmptySearch(group: seq<LLM>)
    requires forall m :: m in group ==> m.provider != ""
    ensures Visible(group, "") == group
  {
    if group != [] {
      assert ToLower("") == "";
      EmptyIsContained(ToLower(group[0].modelName));
      VisibleEmptySearch(group[1..]);
    }
  }

  /** The picker's state. */
  class ModelSelectState {
    var chatSettings: ChatSettings
    var isOpen: bool
    var search: string

    constructor (chatSettings: ChatSettings)
      ensures this.chatSettings == chatSettings && !isOpen && search == ""
    {
      this.chatSettings := chatSettings;
      isOpen := false;
      search := "";
    }

    /** Picking a model changes only the chat's model and closes the menu. */
    method SelectModel(modelId: string)
      modifies this
      ensures chatSettings == old(chatSettings).(model := modelId)
      ensures !isOpen && search == old(search)
    {
      chatSettings := chatSettings.(model := modelId);
      isOpen := false;
    }

    /** Opening or closing the menu clears the search. */
    method OnOpenChange(open: bool)
      modifies this
      ensures isOpen == open && search == "" && chatSettings == old(chatSettings)
    {
      isOpen := open;
      search := "";
    }
  }

  /** After picking a listed model, the chat's model resolves to the first
      listed model with that id. */
  lemma PickedModelIsFound(models: seq<LLM>, k: nat, settings: ChatSettings)
    requires k < |models|
    ensures FindModel(models, settings.(model := models[k].modelId).model).Some?
    ensures FindModel(models, settings.(model := models[k].modelId).model).value.modelId == models[k].modelId
  {
    assert models[k] in models;
  }
}

=== FILE: openai_route.dfy ===
/** The OpenAI chat route: checks the key, forwards the client's messages
    unchanged with a token limit chosen by model, and turns whatever is
    thrown into a JSON error through one classifier. */
module OpenAIRoute {
  import opened Wrappers
  import opened Text
  import opened ChatTypes
  import opened KeywordTable
  import opened ServerChatHelpers

  /** What the route hands the provider; the messages (of any shape `M`)
      are passed through as received. */
  datatype OpenAIRequest<M> = OpenAIRequest(
    model: string,
    messages: seq<M>,
    temperature: real,
    maxTokens: Option<nat>,
    apiKey: string,
    organization: Option<Value>)

  /** How the provider call ends: a stream, or a thrown error. */
  datatype CallOutcome = Streamed | Threw(error: ProviderError)

  const KeyNotFoundOrInvalid := "OpenAI API Key not found or invalid. Please check your API key in settings."
  const KeyIncorrect := "OpenAI API Key is incorrect. Please fix it in your profile settings."
  const NotFoundKeywords := ["api key not found", "invalid api key"]

  /** `max_tokens`: 4096 for the two vision-capable models, `null` otherwise. */
  function MaxTokens(model: string): (r: Option<nat>)
    ensures r.Some? <==> model == "gpt-4-vision-preview" || model == "gpt-4o"
    ensures r.Some? ==> r.value == 4096
  {
    if model == "gpt-4-vision-preview" || model == "gpt-4o" then Some(4096) else None
  }

  /** The error chain, first match wins: a missing or invalid key, an
      incorrect key or status 401, rate limiting or status 429, a context
      length or status 400; otherwise the status (or 500) with the message,
      or the retry text when there is no message. */
  function Classify(e: ProviderError): (c: Classified)
    ensures var lowered := ToLower(MessageOr(e.message, UnexpectedServerError));
      var code := StatusOr500(e.status);
      && (c.code == 401 <==>
            AnyKeyword(NotFoundKeywords, lowered) || Contains(lowered, "incorrect api key") || code == 401)
      && (AnyKeyword(NotFoundKeywords, lowered) ==> c.message == KeyNotFoundOrInvalid)
      && (c.code == 401 && !AnyKeyword(NotFoundKeywords, lowered) ==> c.message == KeyIncorrect)
      && (c.code == 429 <==>
            && !(AnyKeyword(NotFoundKeywords, lowered) || Contains(lowered, "incorrect api key") || code == 401)
            && (Contains(lowered, "rate limit") || code == 429))
      && (c.code == 429 ==> c.message == RouteRateLimitText(e.retryAfter))
      && (c.code == 400 <==>
            && !(AnyKeyword(NotFoundKeywords, lowered) || Contains(lowered, "incorrect api key") || code == 401)
            && !(Contains(lowered, "rate limit") || code == 429)
            && (Contains(lowered, "context length") || code == 400))
      && (c.code == 400 ==> c.message == MessageTooLong)
      && (c.code !in {400, 401, 429} ==>
            c.code == code && c.message == if e.message == "" then UnexpectedRetry else e.message)
  {
    var message := MessageOr(e.message, UnexpectedServerError);
    var code := StatusOr500(e.status);
    var lowered := ToLower(message);
    if AnyKeyword(NotFoundKeywords, lowered) then Classified(401, KeyNotFoundOrInvalid)
    else if Contains(lowered, "incorrect api key") || code == 401 then Classified(401, KeyIncorrect)
    else if Contains(lowered, "rate limit") || code == 429 then Classified(429, RouteRateLimitText(e.retryAfter))
    else if Contains(lowered, "context length") || code == 400 then Classified(400, MessageTooLong)
    else if e.message == "" then Classified(code, UnexpectedRetry)
    else Classified(code, message)
  }

  /** The route's answer. `profile` is the record the key is read from and
      `call` how the provider call ends. */
  function Post<M>(settings: ChatSettings, messages: seq<M>, profile: map<Field, Value>,
                   call: CallOutcome, isDevelopment: bool): (r: RouteResponse<OpenAIRequest<M>>)
    ensures r.Streaming? <==> CheckApiKey(Lookup(profile, OpenaiApiKey), "OpenAI").Pass? && call.Streamed?
    ensures r.Streaming? ==> r.request == OpenAIRequest(
      settings.model, messages, settings.temperature, MaxTokens(settings.model),
      KeyText(Lookup(profile, OpenaiApiKey)), Lookup(profile, OpenaiOrganizationId))
    ensures CheckApiKey(Lookup(profile, OpenaiApiKey), "OpenAI").Fail? ==>
      var e := ProviderError(CheckApiKey(Lookup(profile, OpenaiApiKey), "OpenAI").error, 0, None);
      r.JsonError? && r.status == Classify(e).code && r.message == Classify(e).message
    ensures CheckApiKey(Lookup(profile, OpenaiApiKey), "OpenAI").Pass? && call.Threw? ==>
      r.JsonError? && r.status == Classify(call.error).code && r.message == Classify(call.error).message
      && (isDevelopment ==> r.error == Some(call.error.message))
    ensures r.JsonError? ==> (r.error.Some? <==> isDevelopment)
  {
    var key := Lookup(profile, OpenaiApiKey);
    match CheckApiKey(key, "OpenAI")
    case Fail(m) =>
      var e := ProviderError(m, 0, None);
      ErrorResponse(Classify(e), e, isDevelopment)
    case Pass =>
      match call
      case Streamed =>
        Streaming(OpenAIRequest(settings.model, messages, settings.temperature, MaxTokens(settings.model),
                                KeyText(key), Lookup(profile, OpenaiOrganizationId)))
      case Threw(e) => ErrorResponse(Classify(e), e, isDevelopment)
  }

  /** A profile without an OpenAI key is answered 401 with the
      not-found-or-invalid text. */
  lemma MissingKeyIs401<M>(settings: ChatSettings, messages: seq<M>, profile: map<Field, Value>,
                           call: CallOutcome, isDevelopment: bool)
    requires Lookup(profile, OpenaiApiKey) in {Some(Null), Some(Str(""))}
    ensures Post(settings, messages, profile, call, isDevelopment)
      == JsonError(401, KeyNotFoundOrInvalid, if isDevelopment then Some("OpenAI" + " API Key not found") else None)
  {
    CheckFailureMentionsNotFound("OpenAI");
    assert AnyKeyword(NotFoundKeywords, ToLower("OpenAI" + " API Key not found"));
  }

  /** A message reporting a missing key is answered as such whatever its
      status, even 429: that test comes first. */
  lemma KeyNotFoundFirst(a: string, b: string, status: nat, retryAfter: Option<nat>)
    ensures Classify(ProviderError(a + "api key not found" + b, status, retryAfter))
      == Classified(401, KeyNotFoundOrInvalid)
  {
    var m := a + "api key not found" + b;
    LoweredMention(a, "api key not found", b);
    assert AnyKeyword(NotFoundKeywords, ToLower(m));
  }

  /** A status 400 is always "message too long", whatever the message says,
      once no key problem or rate limit is mentioned. */
  lemma BadRequestIsTooLong(m: string, retryAfter: Option<nat>)
    requires var lowered := ToLower(MessageOr(m, UnexpectedServerError));
      && !AnyKeyword(NotFoundKeywords, lowered)
      && !Contains(lowered, "incorrect api key")
      && !Contains(lowered, "rate limit")
    ensures Classify(ProviderError(m, 400, retryAfter)) == Classified(400, MessageTooLong)
  {
  }
}

=== FILE: quick_settings.dfy ===
/** The quick-settings menu: presets and assistants listed together, a
    search over their names, the "modified" marker, and what picking an
    entry (or removing the current one) does to the chat's state. */
module QuickSettings {
  import opened Wrappers
  import opened Text
  import opened ChatTypes

  /** A preset or assistant record. `name` is `None` when it is not a
      string; a `None` number or flag is a `null` column; an empty `model`
      or `embeddingsProvider` is a falsy one. */
  datatype QuickItem = QuickItem(
    id: string,
    name: Option<string>,
    model: string,
    prompt: string,
    temperature: Option<real>,
    contextLength: Option<int>,
    includeProfileContext: Option<bool>,
    includeWorkspaceInstructions: Option<bool>,
    embeddingsProvider: string)

  /** An element of the context's `presets` or `assistants` array: a record,
      or `null` or some other non-object. */
  datatype Entry = Record(item: QuickItem) | NonObject

  /** The context's `presets` or `assistants` value: an array, or anything else. */
  datatype Listing = ArrayOf(entries: seq<Entry>) | NotArray

  datatype ContentType = Presets | Assistants

  /** A listed item, tagged with where it came from. */
  datatype TaggedItem = TaggedItem(item: QuickItem, contentType: ContentType)

  /** The workspace's defaults, with the same conventions as `QuickItem`. */
  datatype Workspace = Workspace(
    defaultModel: string,
    defaultPrompt: string,
    defaultTemperature: Option<real>,
    defaultContextLength: Option<int>,
    includeProfileContext: Option<bool>,
    includeWorkspaceInstructions: Option<bool>,
    embeddingsProvider: string)

  /** A file attached to the chat. */
  datatype ChatFile = ChatFile(id: string, name: string, fileType: string)

  /** The result of a database lookup made while selecting an assistant. */
  datatype Fetched<T> = Got(value: T) | Threw

  // ---------------------------------------------------------------------
  // The modified marker

  /** Any of the six compared fields of `item` differs from the settings. */
  predicate Differs(item: QuickItem, settings: ChatSettings) {
    || item.includeProfileContext != Some(settings.includeProfileContext)
    || item.includeWorkspaceInstructions != Some(settings.includeWorkspaceInstructions)
    || item.contextLength != Some(settings.contextLength)
    || item.model != settings.model
    || item.prompt != settings.prompt
    || item.temperature != Some(settings.temperature)
  }

  /** The settings were changed since the selected preset (which wins over
      the assistant) or assistant was applied; false when neither is selected. */
  function CheckIfModified(settings: ChatSettings, selectedPreset: Option<QuickItem>,
                           selectedAssistant: Option<QuickItem>): (modified: bool)
    ensures selectedPreset.None? && selectedAssistant.None? ==> !modified
    ensures selectedPreset.Some? ==> (modified <==> Differs(selectedPreset.value, settings))
    ensures selectedPreset.None? && selectedAssistant.Some? ==>
      (modified <==> Differs(selectedAssistant.value, settings))
  {
    if selectedPreset.Some? then Differs(selectedPreset.value, settings)
    else if selectedAssistant.Some? then Differs(selectedAssistant.value, settings)
    else false
  }

  // ---------------------------------------------------------------------
  // Deriving chat settings

  /** The settings an item with a model applies: `||` for the strings,
      `??` for the number and flag columns, with the usual defaults. */
  function SettingsFromItem(item: QuickItem): (s: ChatSettings)
    requires item.model != ""
    ensures s.model == item.model && s.prompt == item.prompt
    ensures s.temperature == item.temperature.GetOr(0.7)
    ensures s.contextLength == item.contextLength.GetOr(4096)
    ensures s.includeProfileContext == item.includeProfileContext.GetOr(false)
    ensures s.includeWorkspaceInstructions == item.includeWorkspaceInstructions.GetOr(false)
    ensures s.embeddingsProvider == MessageOr(item.embeddingsProvider, "openai")
  {
    ChatSettings(
      item.model,
      MessageOr(item.prompt, ""),
      item.temperature.GetOr(0.7),
      item.contextLength.GetOr(4096),
      item.includeProfileContext.GetOr(false),
      item.includeWorkspaceInstructions.GetOr(false),
      MessageOr(item.embeddingsProvider, "openai"))
  }

  /** The settings "remove" restores from the workspace's defaults. */
  function SettingsFromWorkspace(w: Workspace): (s: ChatSettings)
    ensures s.model == MessageOr(w.defaultModel, "gpt-3.5-turbo") && s.prompt == w.defaultPrompt
    ensures s.temperature == w.defaultTemperature.GetOr(0.7)
    ensures s.contextLength == w.defaultContextLength.GetOr(4096)
    ensures s.includeProfileContext == w.includeProfileContext.GetOr(false)
    ensures s.includeWorkspaceInstructions == w.includeWorkspaceInstructions.GetOr(false)
    ensures s.embeddingsProvider == MessageOr(w.embeddingsProvider, "openai")
  {
    ChatSettings(
      MessageOr(w.defaultModel, "gpt-3.5-turbo"),
      MessageOr(w.defaultPrompt, ""),
      w.defaultTemperature.GetOr(0.7),
      w.defaultContextLength.GetOr(4096),
      w.includeProfileContext.GetOr(false),
      w.includeWorkspaceInstructions.GetOr(false),
      MessageOr(w.embeddingsProvider, "openai"))
  }

  /** `??` keeps a zero: a temperature or context length of 0 is applied as
      0, where `||` would have replaced it. */
  lemma ZeroSettingsKept(item: QuickItem)
    requires item.model != ""
    requires item.temperature == Some(0.0) && item.contextLength == Some(0)
    ensures SettingsFromItem(item).temperature == 0.0 && SettingsFromItem(item).contextLength == 0
  {
  }

  /** Applying an item whose compared columns are all set leaves nothing
      modified with respect to that item. */
  lemma AppliedItemUnmodified(item: QuickItem, other: Option<QuickItem>)
    requires item.model != ""
    requires item.temperature.Some? && item.contextLength.Some?
    requires item.includeProfileContext.Some? && item.includeWorkspaceInstructions.Some?
    ensures !CheckIfModified(SettingsFromItem(item), Some(item), other)
    ensures !CheckIfModified(SettingsFromItem(item), None, Some(item))
  {
  }

  /** An item with a null column always reads as modified once selected,
      since `null` never equals a setting. */
  lemma NullColumnReadsModified(item: QuickItem, settings: ChatSettings)
    requires item.temperature.None? || item.contextLength.None?
      || item.includeProfileContext.None? || item.includeWorkspaceInstructions.None?
    ensures CheckIfModified(settings, Some(item), None)
  {
  }

  // ---------------------------------------------------------------------
  // The listed items

  /** The records of a listing, in order; a non-array lists nothing. */
  function Records(l: Listing): (r: seq<QuickItem>)
    ensures l.NotArray? ==> r == []
  {
    if l.NotArray? then [] else RecordsOf(l.entries)
  }

  function RecordsOf(entries: seq<Entry>): (r: seq<QuickItem>)
    ensures |r| <= |entries|
    ensures forall x :: x in r <==> Record(x) in entries
  {
    if entries == [] then []
    else (if entries[0].Record? then [entries[0].item] else []) + RecordsOf(entries[1..])
  }

  /** Records are kept in entry order, each once: the records of a
      concatenation are the records of its parts, concatenated. */
  lemma {:induction false} RecordsOfAppend(a: seq<Entry>, b: seq<Entry>)
    ensures RecordsOf(a + b) == RecordsOf(a) + RecordsOf(b)
    decreases |a|
  {
    if a == [] {
      assert a + b == b;
    } else {
      assert (a + b)[1..] == a[1..] + b;
      RecordsOfAppend(a[1..], b);
    }
  }

  /** A single entry lists its record, if it is one. */
  lemma RecordsOfSingle(e: Entry)
    ensures RecordsOf([e]) == if e.Record? then [e.item] else []
  {
    assert [e][1..] == [];
  }

  function Tag(items: seq<QuickItem>, t: ContentType): (r: seq<TaggedItem>)
    ensures |r| == |items|
    ensures forall i :: 0 <= i < |items| ==> r[i] == TaggedItem(items[i], t)
  {
    seq(|items|, i requires 0 <= i < |items| => TaggedItem(items[i], t))
  }

  /** The menu's item list: `forEach` over the presets then over the
      assistants, pushing every record with its tag. */
  method BuildItems(presets: Listing, assistants: Listing) returns (items: seq<TaggedItem>)
    ensures items == Tag(Records(presets), Presets) + Tag(Records(assistants), Assistants)
  {
    items := PushRecords([], presets, Presets);
    items := PushRecords(items, assistants, Assistants);
  }

  /** One `forEach` of the item list: every record of `l`, tagged, pushed onto `items`. */
  method PushRecords(items: seq<TaggedItem>, l: Listing, t: ContentType) returns (r: seq<TaggedItem>)
    ensures r == items + Tag(Records(l), t)
  {
    r := items;
    var es := if l.ArrayOf? then l.entries else [];
    for i := 0 to |es|
      invariant r == items + TaggedRecords(es[..i], t)
    {
      assert es[..i + 1][..i] == es[..i];
      if es[i].Record? {
        r := r + [TaggedItem(es[i].item, t)];
      }
    }
    assert es[..|es|] == es;
    TaggedRecordsIsTag(es, t);
  }

  /** The records of `entries` tagged with `t`, as the loop pushes them. */
  function TaggedRecords(entries: seq<Entry>, t: ContentType): seq<TaggedItem> {
    if entries == [] then []
    else
      var last := entries[|entries| - 1];
      TaggedRecords(entries[..|entries| - 1], t) + (if last.Record? then [TaggedItem(last.item, t)] else [])
  }

  lemma {:induction false} TaggedRecordsIsTag(entries: seq<Entry>, t: ContentType)
    ensures TaggedRecords(entries, t) == Tag(RecordsOf(entries), t)
  {
    if entries != [] {
      var init, last := entries[..|entries| - 1], entries[|entries| - 1];
      assert entries == init + [last];
      TaggedRecordsIsTag(init, t);
      RecordsOfSnoc(init, last);
      TagAppend(RecordsOf(init), if last.Record? then [last.item] else [], t);
    }
  }

  /** Tagging distributes over concatenation. */
  lemma TagAppend(a: seq<QuickItem>, b: seq<QuickItem>, t: ContentType)
    ensures Tag(a + b, t) == Tag(a, t) + Tag(b, t)
  {
  }

  /** Appending an entry appends its record, if it has one. */
  lemma RecordsOfSnoc(entries: seq<Entry>, e: Entry)
    ensures RecordsOf(entries + [e]) == RecordsOf(entries) + (if e.Record? then [e.item] else [])
  {
    if entries != [] {
      assert (entries + [e])[1..] == entries[1..] + [e];
    }
  }

  /** The presets come first: the list starts with exactly the presets'
      records, each tagged as a preset, and every entry is tagged by where
      it came from. */
  lemma ItemsPresetsFirst(presets: Listing, assistants: Listing)
    ensures var items := Tag(Records(presets), Presets) + Tag(Records(assistants), Assistants);
      && |items| == |Records(presets)| + |Records(assistants)|
      && (forall i :: 0 <= i < |Records(presets)| ==> items[i] == TaggedItem(Records(presets)[i], Presets))
      && (forall i :: |Records(presets)| <= i < |items| ==> items[i].contentType == Assistants)
  {
  }

  // ---------------------------------------------------------------------
  // The search filter

  /** An item passes the filter: its name is a non-empty string containing
      the search, both lower-cased, and it is neither selected entry. */
  predicate Shown(t: TaggedItem, search: string, selectedPreset: Option<QuickItem>,
                  selectedAssistant: Option<QuickItem>) {
    && t.item.name.Some? && t.item.name.value != ""
    && Contains(ToLower(t.item.name.value), ToLower(search))
    && (selectedPreset.None? || t.item.id != selectedPreset.value.id)
    && (selectedAssistant.None? || t.item.id != selectedAssistant.value.id)
  }

  /** The options rendered below the search box: the items that pass the
      filter and have an id, in list order. */
  function Options(items: seq<TaggedItem>, search: string, selectedPreset: Option<QuickItem>,
                   selectedAssistant: Option<QuickItem>): (r: seq<TaggedItem>)
    ensures |r| <= |items|
    ensures forall t :: t in r <==> t in items && Shown(t, search, selectedPreset, selectedAssistant) && t.item.id != ""
  {
    if items == [] then []
    else
      var t := items[0];
      (if Shown(t, search, selectedPreset, selectedAssistant) && t.item.id != "" then [t] else [])
        + Options(items[1..], search, selectedPreset, selectedAssistant)
  }

  /** The options keep list order, each item as often as it is listed:
      filtering a concatenation concatenates the filtered parts, and a
      single item is offered exactly when it passes the filter and has an id. */
  lemma {:induction false} OptionsAppend(a: seq<TaggedItem>, b: seq<TaggedItem>, search: string,
                                         selectedPreset: Option<QuickItem>, selectedAssistant: Option<QuickItem>)
    ensures Options(a + b, search, selectedPreset, selectedAssistant)
      == Options(a, search, selectedPreset, selectedAssistant) + Options(b, search, selectedPreset, selectedAssistant)
    decreases |a|
  {
    if a == [] {
      assert a + b == b;
    } else {
      assert (a + b)[1..] == a[1..] + b;
      OptionsAppend(a[1..], b, search, selectedPreset, selectedAssistant);
    }
  }

  lemma OptionsSingle(t: TaggedItem, search: string, selectedPreset: Option<QuickItem>,
                      selectedAssistant: Option<QuickItem>)
    ensures Options([t], search, selectedPreset, selectedAssistant)
      == if Shown(t, search, selectedPreset, selectedAssistant) && t.item.id != "" then [t] else []
  {
    assert [t][1..] == [];
  }

  /** With an empty search and nothing selected, every named item with an id is offered. */
  lemma EmptySearchOffersAll(items: seq<TaggedItem>)
    ensures forall t :: t in items && t.item.name.Some? && t.item.name.value != "" && t.item.id != "" ==>
      t in Options(items, "", None, None)
  {
    forall t | t in items && t.item.name.Some? && t.item.name.value != "" && t.item.id != ""
      ensures t in Options(items, "", None, None)
    {
      EmptyIsContained(ToLower(t.item.name.value));
      assert ToLower("") == "";
    }
  }

  /** The selected entries are never offered again. */
  lemma SelectedNotOffered(items: seq<TaggedItem>, search: string, preset: QuickItem,
                           selectedAssistant: Option<QuickItem>)
    ensures forall t :: t in Options(items, search, Some(preset), selectedAssistant) ==> t.item.id != preset.id
  {
  }

  // ---------------------------------------------------------------------
  // Selecting an entry

  /** The choices the menu offers: an item of either kind, or "remove". */
  datatype Choice = Pick(contentType: ContentType) | Remove

  /** Every file of the assistant: its own files, then each collection's
      files in order; a collection whose lookup throws adds nothing. */
  function CollectedFiles(own: seq<ChatFile>, collections: seq<Fetched<seq<ChatFile>>>): seq<ChatFile>
    decreases |collections|
  {
    if collections == [] then own
    else
      var last := collections[|collections| - 1];
      CollectedFiles(own, collections[..|collections| - 1]) + (if last.Got? then last.value else [])
  }

  /** The profile is the guest's when either of its ids is `"guest"`. */
  predicate IsGuest(profile: Option<(string, string)>) {
    profile.Some? && (profile.value.0 == "guest" || profile.value.1 == "guest")
  }

  /** Every lookup of an assistant's data succeeded. */
  predicate AllFetched(ownFiles: Fetched<seq<ChatFile>>, collections: Fetched<seq<Fetched<seq<ChatFile>>>>,
                       tools: Fetched<seq<string>>) {
    ownFiles.Got? && collections.Got? && tools.Got?
  }

  /** The menu's state, as the component and the context hold it. */
  class QuickSettingsState {
    var selectedPreset: Option<QuickItem>
    var selectedAssistant: Option<QuickItem>
    var chatSettings: ChatSettings
    var chatFiles: seq<ChatFile>
    var selectedTools: seq<string>
    var showFilesDisplay: bool
    var loading: bool
    var isOpen: bool
    var search: string

    constructor (chatSettings: ChatSettings)
      ensures this.chatSettings == chatSettings
      ensures selectedPreset.None? && selectedAssistant.None?
      ensures chatFiles == [] && selectedTools == [] && !showFilesDisplay
      ensures !loading && !isOpen && search == ""
    {
      this.chatSettings := chatSettings;
      selectedPreset := None;
      selectedAssistant := None;
      chatFiles := [];
      selectedTools := [];
      showFilesDisplay := false;
      loading := false;
      isOpen := false;
      search := "";
    }

    /** Opening or closing the menu clears the search. */
    method OnOpenChange(open: bool)
      modifies this
      ensures isOpen == open && search == ""
      ensures selectedPreset == old(selectedPreset) && selectedAssistant == old(selectedAssistant)
      ensures chatSettings == old(chatSettings) && chatFiles == old(chatFiles)
      ensures selectedTools == old(selectedTools) && showFilesDisplay == old(showFilesDisplay)
      ensures loading == old(loading)
    {
      isOpen := open;
      search := "";
    }

    /** Loads an assistant's tools and files. Each lookup is a parameter;
        one that throws (other than a collection's) ends the loading with
        no tools and no files. */
    method LoadAssistant(ownFiles: Fetched<seq<ChatFile>>,
                         collections: Fetched<seq<Fetched<seq<ChatFile>>>>,
                         tools: Fetched<seq<string>>)
      modifies this
      ensures AllFetched(ownFiles, collections, tools) ==>
        && selectedTools == tools.value
        && chatFiles == CollectedFiles(ownFiles.value, collections.value)
        && showFilesDisplay == (old(showFilesDisplay) || |chatFiles| > 0)
      ensures !AllFetched(ownFiles, collections, tools) ==>
        selectedTools == [] && chatFiles == [] && showFilesDisplay == old(showFilesDisplay)
      ensures selectedPreset == old(selectedPreset) && selectedAssistant == old(selectedAssistant)
      ensures chatSettings == old(chatSettings) && loading == old(loading)
      ensures isOpen == old(isOpen) && search == old(search)
    {
      if !(ownFiles.Got? && collections.Got?) {
        selectedTools := [];
        chatFiles := [];
        return;
      }
      var allFiles := ownFiles.value;
      var cs := collections.value;
      for i := 0 to |cs|
        invariant allFiles == CollectedFiles(ownFiles.value, cs[..i])
      {
        assert cs[..i + 1][..i] == cs[..i];
        if cs[i].Got? {
          allFiles := allFiles + cs[i].value;
        }
      }
      assert cs[..|cs|] == cs;
      if tools.Threw? {
        selectedTools := [];
        chatFiles := [];
        return;
      }
      selectedTools := tools.value;
      chatFiles := allFiles;
      if |allFiles| > 0 {
        showFilesDisplay := true;
      }
    }

    /** Picking an entry, or "remove". An assistant is selected and, for a
        guest, nothing is loaded; otherwise its files and tools are. A preset
        is selected and clears the assistant, files and tools. "Remove" (or
        a pick without an item) clears everything and, with a workspace,
        restores its defaults. A picked item with a model then sets the
        chat settings. */
    method HandleSelectQuickSetting(item: Option<QuickItem>, choice: Choice,
                                    profileIds: Option<(string, string)>,
                                    workspace: Option<Workspace>,
                                    ownFiles: Fetched<seq<ChatFile>>,
                                    collections: Fetched<seq<Fetched<seq<ChatFile>>>>,
                                    tools: Fetched<seq<string>>)
      modifies this
      ensures choice == Pick(Assistants) && item.Some? ==>
        && selectedAssistant == item && selectedPreset.None? && !loading
        && (IsGuest(profileIds) ==>
              selectedTools == [] && chatFiles == [] && showFilesDisplay == old(showFilesDisplay))
        && (!IsGuest(profileIds) && AllFetched(ownFiles, collections, tools) ==>
              && selectedTools == tools.value
              && chatFiles == CollectedFiles(ownFiles.value, collections.value)
              && showFilesDisplay == (old(showFilesDisplay) || |chatFiles| > 0))
        && (!IsGuest(profileIds) && !AllFetched(ownFiles, collections, tools) ==>
              selectedTools == [] && chatFiles == [] && showFilesDisplay == old(showFilesDisplay))
      ensures choice == Pick(Presets) && item.Some? ==>
        && selectedPreset == item && selectedAssistant.None? && chatFiles == [] && selectedTools == []
        && loading == old(loading) && showFilesDisplay == old(showFilesDisplay)
      ensures choice.Pick? && item.Some? ==>
        chatSettings == (if item.value.model != "" then SettingsFromItem(item.value) else old(chatSettings))
      ensures (choice == Remove || item.None?) ==>
        && selectedPreset.None? && selectedAssistant.None? && chatFiles == [] && selectedTools == []
        && chatSettings == (if workspace.Some? then SettingsFromWorkspace(workspace.value) else old(chatSettings))
        && loading == old(loading) && showFilesDisplay == old(showFilesDisplay)
      ensures isOpen == old(isOpen) && search == old(search)
    {
      if choice == Pick(Assistants) && item.Some? {
        selectedAssistant := item;
        loading := true;
        if IsGuest(profileIds) {
          selectedTools := [];
          chatFiles := [];
          loading := false;
          selectedPreset := None;
        } else {
          LoadAssistant(ownFiles, collections, tools);
          loading := false;
          selectedPreset := None;
        }
      } else if choice == Pick(Presets) && item.Some? {
        selectedPreset := item;
        selectedAssistant := None;
        chatFiles := [];
        selectedTools := [];
      } else {
        assert choice.Pick? ==> choice.contentType == Presets || choice.contentType == Assistants;
        assert !(choice.Pick? && item.Some?);
        selectedPreset := None;
        selectedAssistant := None;
        chatFiles := [];
        selectedTools := [];
        if workspace.Some? {
          chatSettings := SettingsFromWorkspace(workspace.value);
        }
        return;
      }
      if item.value.model != "" {
        chatSettings := SettingsFromItem(item.value);
      }
    }
  }

}

=== FILE: server_chat_helpers.dfy ===
/** The server side of key handling: the profile a provider route reads its
    keys from (the guest record when no Supabase project is configured or
    the Supabase lookup fails), the environment variables that override the
    profile's key fields, and the guard that rejects a missing key. */
module ServerChatHelpers {
  import opened Wrappers
  import opened Text

  /** The columns of a profile record. */
  datatype Field =
    | Id | UserId | DisplayName | Username | HasOnboarded
    | ImagePath | ImageUrl | Bio | ProfileContext
    | OpenaiApiKey | AnthropicApiKey | GoogleGeminiApiKey | MistralApiKey
    | PerplexityApiKey | OpenrouterApiKey | GroqApiKey
    | UseAzureOpenai | AzureOpenaiApiKey | AzureOpenaiEndpoint
    | AzureOpenai35TurboId | AzureOpenai45TurboId | AzureOpenai45VisionId
    | AzureOpenaiEmbeddingsId | OpenaiOrganizationId | UseGoogleGemini
    | CreatedAt | UpdatedAt

  /** A column's value: SQL/JSON `null`, a string or a boolean. */
  datatype Value = Null | Str(s: string) | Flag(b: bool)

  /** `process.env`: a variable is either absent or holds a string. */
  type Env = map<string, string>

  /** `process.env[name]` is truthy: present and non-empty. */
  predicate EnvSet(env: Env, name: string) {
    name in env && env[name] != ""
  }

  /** `process.env[name] || null`. */
  function EnvOrNull(env: Env, name: string): (v: Value)
    ensures EnvSet(env, name) ==> v == Str(env[name])
    ensures !EnvSet(env, name) ==> v == Null
  {
    if EnvSet(env, name) then Str(env[name]) else Null
  }

  /** Reading a property of the record: `None` is `undefined`. */
  function Lookup(fields: map<Field, Value>, f: Field): Option<Value> {
    if f in fields then Some(fields[f]) else None
  }

  /** The key variables the override loop knows about. */
  datatype KeyVar =
    | OpenAIKey | AnthropicKey | GoogleGeminiKey | MistralKey | GroqKey | PerplexityKey
    | AzureOpenAIKey | OpenRouterKey | OpenAIOrganization | AzureEndpoint
    | AzureGpt35TurboName | AzureGpt45VisionName | AzureGpt45TurboName | AzureEmbeddingsName

  /** The environment variable a key variable is read from. */
  function EnvName(k: KeyVar): string {
    match k
    case OpenAIKey => "OPENAI_API_KEY"
    case AnthropicKey => "ANTHROPIC_API_KEY"
    case GoogleGeminiKey => "GOOGLE_GEMINI_API_KEY"
    case MistralKey => "MISTRAL_API_KEY"
    case GroqKey => "GROQ_API_KEY"
    case PerplexityKey => "PERPLEXITY_API_KEY"
    case AzureOpenAIKey => "AZURE_OPENAI_API_KEY"
    case OpenRouterKey => "OPENROUTER_API_KEY"
    case OpenAIOrganization => "OPENAI_ORGANIZATION_ID"
    case AzureEndpoint => "AZURE_OPENAI_ENDPOINT"
    case AzureGpt35TurboName => "AZURE_GPT_35_TURBO_NAME"
    case AzureGpt45VisionName => "AZURE_GPT_45_VISION_NAME"
    case AzureGpt45TurboName => "AZURE_GPT_45_TURBO_NAME"
    case AzureEmbeddingsName => "AZURE_EMBEDDINGS_NAME"
  }

  /** The position of a key column in the override order; -1 for every other column. */
  function ColumnRank(f: Field): int {
    match f
    case OpenaiApiKey => 0
    case AnthropicApiKey => 1
    case GoogleGeminiApiKey => 2
    case MistralApiKey => 3
    case GroqApiKey => 4
    case PerplexityApiKey => 5
    case AzureOpenaiApiKey => 6
    case OpenrouterApiKey => 7
    case OpenaiOrganizationId => 8
    case AzureOpenaiEndpoint => 9
    case AzureOpenai35TurboId => 10
    case AzureOpenai45VisionId => 11
    case AzureOpenai45TurboId => 12
    case AzureOpenaiEmbeddingsId => 13
    case _ => -1
  }

  /** The profile column a key variable overrides. */
  function Column(k: KeyVar): (f: Field)
    ensures f != Id && f != UserId
    ensures ColumnRank(f) >= 0
  {
    match k
    case OpenAIKey => OpenaiApiKey
    case AnthropicKey => AnthropicApiKey
    case GoogleGeminiKey => GoogleGeminiApiKey
    case MistralKey => MistralApiKey
    case GroqKey => GroqApiKey
    case PerplexityKey => PerplexityApiKey
    case AzureOpenAIKey => AzureOpenaiApiKey
    case OpenRouterKey => OpenrouterApiKey
    case OpenAIOrganization => OpenaiOrganizationId
    case AzureEndpoint => AzureOpenaiEndpoint
    case AzureGpt35TurboName => AzureOpenai35TurboId
    case AzureGpt45VisionName => AzureOpenai45VisionId
    case AzureGpt45TurboName => AzureOpenai45TurboId
    case AzureEmbeddingsName => AzureOpenaiEmbeddingsId
  }

  /** The key variables in the order the override loop visits them. */
  const ApiKeyMapping: seq<KeyVar> := [
    OpenAIKey, AnthropicKey, GoogleGeminiKey, MistralKey, GroqKey, PerplexityKey,
    AzureOpenAIKey, OpenRouterKey, OpenAIOrganization, AzureEndpoint,
    AzureGpt35TurboName, AzureGpt45VisionName, AzureGpt45TurboName, AzureEmbeddingsName
  ]

  /** No column is the target of two overrides. */
  predicate DistinctTargets(keys: seq<KeyVar>) {
    forall i, j :: 0 <= i < j < |keys| ==> Column(keys[i]) != Column(keys[j])
  }

  /** Some override targets column `f`. */
  predicate Mapped(keys: seq<KeyVar>, f: Field) {
    exists i :: 0 <= i < |keys| && Column(keys[i]) == f
  }

  /** The columns after the overrides `keys`, applied left to right: a set
      variable replaces its column, an unset one leaves it alone. */
  function WithEnvKeys(fields: map<Field, Value>, env: Env, keys: seq<KeyVar>): map<Field, Value>
    decreases |keys|
  {
    if keys == [] then fields
    else
      var name := EnvName(keys[0]);
      WithEnvKeys(if EnvSet(env, name) then fields[Column(keys[0]) := Str(env[name])] else fields, env, keys[1..])
  }

  /** One step of the override loop: the overrides from position `i` on are
      the override at `i` followed by those after it. */
  lemma WithEnvKeysStep(fields: map<Field, Value>, env: Env, keys: seq<KeyVar>, i: nat)
    requires i < |keys|
    ensures var name := EnvName(keys[i]);
      WithEnvKeys(fields, env, keys[i..])
        == WithEnvKeys(if EnvSet(env, name) then fields[Column(keys[i]) := Str(env[name])] else fields,
                       env, keys[i + 1..])
  {
    assert keys[i..][1..] == keys[i + 1..];
  }

  lemma MappingTargetsDistinct()
    ensures DistinctTargets(ApiKeyMapping)
  {
    assert forall i :: 0 <= i < |ApiKeyMapping| ==> ColumnRank(Column(ApiKeyMapping[i])) == i;
  }

  /** With distinct targets, a column named by an override holds the
      variable's value when the variable is set and is unchanged otherwise;
      every other column, present or absent, is unchanged. */
  lemma {:induction false} WithEnvKeysSpec(fields: map<Field, Value>, env: Env, keys: seq<KeyVar>)
    requires DistinctTargets(keys)
    ensures forall f :: !Mapped(keys, f) ==> Lookup(WithEnvKeys(fields, env, keys), f) == Lookup(fields, f)
    ensures forall i :: 0 <= i < |keys| ==>
      Lookup(WithEnvKeys(fields, env, keys), Column(keys[i]))
        == if EnvSet(env, EnvName(keys[i])) then Some(Str(env[EnvName(keys[i])])) else Lookup(fields, Column(keys[i]))
    decreases |keys|
  {
    if keys != [] {
      var name := EnvName(keys[0]);
      var target := Column(keys[0]);
      var next := if EnvSet(env, name) then fields[target := Str(env[name])] else fields;
      var tail := keys[1..];
      assert DistinctTargets(tail) by {
        forall i, j | 0 <= i < j < |tail| ensures Column(tail[i]) != Column(tail[j]) {
          assert tail[i] == keys[i + 1] && tail[j] == keys[j + 1];
        }
      }
      WithEnvKeysSpec(next, env, tail);
      var r := WithEnvKeys(fields, env, keys);
      assert r == WithEnvKeys(next, env, tail);
      forall f | !Mapped(keys, f) ensures Lookup(r, f) == Lookup(fields, f) {
        assert f != target;
        forall k | 0 <= k < |tail| ensures Column(tail[k]) != f {
          assert tail[k] == keys[k + 1];
        }
      }
      forall i | 0 <= i < |keys|
        ensures Lookup(r, Column(keys[i]))
          == if EnvSet(env, EnvName(keys[i])) then Some(Str(env[EnvName(keys[i])])) else Lookup(fields, Column(keys[i]))
      {
        if i == 0 {
          forall k | 0 <= k < |tail| ensures Column(tail[k]) != target {
            assert tail[k] == keys[k + 1];
          }
        } else {
          assert keys[i] == tail[i - 1];
          assert Column(keys[i]) != target;
        }
      }
    }
  }

  /** A profile record; the override loop updates it in place. */
  class Profile {
    var fields: map<Field, Value>

    constructor (fields: map<Field, Value>)
      ensures this.fields == fields
    {
      this.fields := fields;
    }
  }

  /** The override loop: visits the mapping in order and, for each set
      variable, assigns it to its column; returns the same object. */
  method AddApiKeysToProfile(profile: Profile, env: Env) returns (r: Profile)
    modifies profile
    ensures r == profile
    ensures profile.fields == WithEnvKeys(old(profile.fields), env, ApiKeyMapping)
  {
    for i := 0 to |ApiKeyMapping|
      invariant WithEnvKeys(profile.fields, env, ApiKeyMapping[i..])
        == WithEnvKeys(old(profile.fields), env, ApiKeyMapping)
    {
      var name := EnvName(ApiKeyMapping[i]);
      WithEnvKeysStep(profile.fields, env, ApiKeyMapping, i);
      if EnvSet(env, name) {
        profile.fields := profile.fields[Column(ApiKeyMapping[i]) := Str(env[name])];
      }
    }
    r := profile;
  }

  /** The guest record, before overrides. `now` is the ISO timestamp of
      both date columns. */
  function GuestFields(env: Env, now: string): (fields: map<Field, Value>)
    ensures Lookup(fields, Id) == Some(Str("guest")) && Lookup(fields, UserId) == Some(Str("guest"))
    ensures Lookup(fields, OpenaiApiKey) == Some(EnvOrNull(env, "OPENAI_API_KEY"))
    ensures Lookup(fields, AnthropicApiKey) == Some(EnvOrNull(env, "ANTHROPIC_API_KEY"))
  {
    map[
      Id := Str("guest"), UserId := Str("guest"), DisplayName := Str("Guest"),
      Username := Str("guest"), HasOnboarded := Flag(true),
      ImagePath := Str(""), ImageUrl := Str(""), Bio := Str(""), ProfileContext := Str(""),
      OpenaiApiKey := EnvOrNull(env, "OPENAI_API_KEY"),
      AnthropicApiKey := EnvOrNull(env, "ANTHROPIC_API_KEY"),
      GoogleGeminiApiKey := Null, MistralApiKey := Null, PerplexityApiKey := Null,
      OpenrouterApiKey := Null, GroqApiKey := Null,
      UseAzureOpenai := Flag(false), AzureOpenaiApiKey := Null, AzureOpenaiEndpoint := Null,
      AzureOpenai35TurboId := Null, AzureOpenai45TurboId := Null, AzureOpenai45VisionId := Null,
      AzureOpenaiEmbeddingsId := Null, OpenaiOrganizationId := Null,
      UseGoogleGemini := Flag(false),
      CreatedAt := Str(now), UpdatedAt := Str(now)
    ]
  }

  /** Both Supabase variables are set. */
  predicate HasSupabase(env: Env) {
    EnvSet(env, "NEXT_PUBLIC_SUPABASE_URL") && EnvSet(env, "NEXT_PUBLIC_SUPABASE_ANON_KEY")
  }

  /** What the Supabase lookup of the signed-in user's profile yields: the
      record, or a failure (no user, an auth error, no profile row). */
  datatype ProfileLookup = Found(fields: map<Field, Value>) | LookupFailed

  /** The record the overrides start from. */
  function BaseFields(env: Env, lookup: ProfileLookup, now: string): map<Field, Value> {
    if HasSupabase(env) && lookup.Found? then lookup.fields else GuestFields(env, now)
  }

  /** The profile a route reads: the Supabase record when Supabase is
      configured and the lookup succeeds, the guest record otherwise (a
      lookup failure is caught and falls back); overrides applied in both. */
  method GetServerProfile(env: Env, lookup: ProfileLookup, now: string) returns (profile: Profile)
    ensures fresh(profile)
    ensures profile.fields == WithEnvKeys(BaseFields(env, lookup, now), env, ApiKeyMapping)
  {
    var base := new Profile(BaseFields(env, lookup, now));
    profile := AddApiKeysToProfile(base, env);
  }

  /** The guest profile is `"guest"` twice over, and its OpenAI and
      Anthropic keys are the environment's, or `null` when unset. */
  lemma GuestProfileKeys(env: Env, now: string)
    ensures var fields := WithEnvKeys(GuestFields(env, now), env, ApiKeyMapping);
      && Lookup(fields, Id) == Some(Str("guest"))
      && Lookup(fields, UserId) == Some(Str("guest"))
      && Lookup(fields, OpenaiApiKey) == Some(EnvOrNull(env, "OPENAI_API_KEY"))
      && Lookup(fields, AnthropicApiKey) == Some(EnvOrNull(env, "ANTHROPIC_API_KEY"))
  {
    var g := GuestFields(env, now);
    OverridesKeepIdentity(g, env);
    assert ApiKeyMapping[0] == OpenAIKey && ApiKeyMapping[1] == AnthropicKey;
    OverrideOfEnvValue(g, env, 0);
    OverrideOfEnvValue(g, env, 1);
  }

  /** The overrides never touch the identity columns. */
  lemma OverridesKeepIdentity(fields: map<Field, Value>, env: Env)
    ensures Lookup(WithEnvKeys(fields, env, ApiKeyMapping), Id) == Lookup(fields, Id)
    ensures Lookup(WithEnvKeys(fields, env, ApiKeyMapping), UserId) == Lookup(fields, UserId)
  {
    MappingTargetsDistinct();
    WithEnvKeysSpec(fields, env, ApiKeyMapping);
  }

  /** A key column that already holds `process.env[name] || null` keeps that value. */
  lemma OverrideOfEnvValue(fields: map<Field, Value>, env: Env, i: nat)
    requires i < |ApiKeyMapping|
    requires Lookup(fields, Column(ApiKeyMapping[i])) == Some(EnvOrNull(env, EnvName(ApiKeyMapping[i])))
    ensures Lookup(WithEnvKeys(fields, env, ApiKeyMapping), Column(ApiKeyMapping[i]))
      == Some(EnvOrNull(env, EnvName(ApiKeyMapping[i])))
  {
    MappingTargetsDistinct();
    WithEnvKeysSpec(fields, env, ApiKeyMapping);
  }

  /** The guard on a key read from the profile (`None` is `undefined`):
      fails exactly on `null` and on the empty string. */
  function CheckApiKey(apiKey: Option<Value>, keyName: string): (r: Outcome<string>)
    ensures r.Fail? <==> apiKey == Some(Null) || apiKey == Some(Str(""))
    ensures r.Fail? ==> r.error == keyName + " API Key not found"
  {
    if apiKey == Some(Null) || apiKey == Some(Str("")) then Fail(keyName + " API Key not found")
    else Pass
  }

  /** `profile.<key> || ""`: the key handed to the provider client. */
  function KeyText(apiKey: Option<Value>): string {
    if apiKey.Some? && apiKey.value.Str? then apiKey.value.s else ""
  }

  /** Seventeen characters spelling `api key not found` are that string. */
  lemma SpellsApiKeyNotFound(x: string)
    requires |x| == 17
    requires x[0] == 'a' && x[1] == 'p' && x[2] == 'i' && x[3] == ' ' && x[4] == 'k' && x[5] == 'e'
    requires x[6] == 'y' && x[7] == ' ' && x[8] == 'n' && x[9] == 'o' && x[10] == 't' && x[11] == ' '
    requires x[12] == 'f' && x[13] == 'o' && x[14] == 'u' && x[15] == 'n' && x[16] == 'd'
    ensures x == "api key not found"
  {
  }

  /** Every failure of the guard mentions `api key not found` once lower-cased,
      whatever the key's name. */
  lemma CheckFailureMentionsNotFound(keyName: string)
    ensures Contains(ToLower(keyName + " API Key not found"), "api key not found")
  {
    var lowered := ToLower(keyName + " API Key not found");
    var at := |keyName| + 1;
    var window := lowered[at..at + 17];
    assert window[0] == 'a';
    assert window[1] == 'p';
    assert window[2] == 'i';
    assert window[3] == ' ';
    assert window[4] == 'k';
    assert window[5] == 'e';
    assert window[6] == 'y';
    assert window[7] == ' ';
    assert window[8] == 'n';
    assert window[9] == 'o';
    assert window[10] == 't';
    assert window[11] == ' ';
    assert window[12] == 'f';
    assert window[13] == 'o';
    assert window[14] == 'u';
    assert window[15] == 'n';
    assert window[16] == 'd';
    SpellsApiKeyNotFound(window);
    assert OccursAt(lowered, "api key not found", at);
    ContainsIff(lowered, "api key not found");
  }
}

=== FILE: text.dfy ===
/** The JavaScript string operations the core relies on, written out over
    `seq<char>`: `toLowerCase`, `includes`, `trimEnd`, `split` with a
    one-character separator, the decimal rendering of a number in a template
    literal, and `Math.ceil` of a quotient. */
module Text {

  /** ECMAScript WhiteSpace and LineTerminator code points: what `trimEnd` removes. */
  predicate IsWhitespace(c: char) {
    || c == '\t' || c == '\n' || c == '\U{000B}' || c == '\U{000C}' || c == '\r'
    || c == ' ' || c == '\U{00A0}' || c == '\U{1680}'
    || ('\U{2000}' <= c <= '\U{200A}')
    || c == '\U{2028}' || c == '\U{2029}' || c == '\U{202F}' || c == '\U{205F}'
    || c == '\U{3000}' || c == '\U{FEFF}'
  }

  /** Lower-cases the ASCII letters; every other character is kept. */
  function LowerChar(c: char): (r: char)
    ensures 'A' <= c <= 'Z' ==> 'a' <= r <= 'z' && r as int == c as int + 32
    ensures !('A' <= c <= 'Z') ==> r == c
  {
    if 'A' <= c <= 'Z' then (c as int + 32) as char else c
  }

  function ToLower(s: string): (r: string)
    ensures |r| == |s|
    ensures forall i :: 0 <= i < |s| ==> r[i] == LowerChar(s[i])
  {
    if s == [] then [] else [LowerChar(s[0])] + ToLower(s[1..])
  }

  predicate StartsWith(s: string, prefix: string) {
    |prefix| <= |s| && s[..|prefix|] == prefix
  }

  /** `s.includes(sub)`: `sub` occurs somewhere in `s`, searched left to right. */
  predicate Contains(s: string, sub: string)
    decreases |s|
  {
    StartsWith(s, sub) || (s != [] && Contains(s[1..], sub))
  }

  /** `sub` sits in `s` at offset `i`. */
  predicate OccursAt(s: string, sub: string, i: int) {
    0 <= i <= |s| - |sub| && s[i..i + |sub|] == sub
  }

  /** `Contains` holds exactly when `sub` sits at some offset of `s`. */
  lemma {:induction false} ContainsIff(s: string, sub: string)
    ensures Contains(s, sub) <==> exists i :: OccursAt(s, sub, i)
    decreases |s|
  {
    if StartsWith(s, sub) {
      assert OccursAt(s, sub, 0);
    }
    if exists i :: OccursAt(s, sub, i) {
      var i :| OccursAt(s, sub, i);
      if i == 0 {
        assert StartsWith(s, sub);
      } else {
        ContainsIff(s[1..], sub);
        assert s[1..][i - 1..i - 1 + |sub|] == s[i..i + |sub|];
        assert OccursAt(s[1..], sub, i - 1);
      }
    }
    if s != [] && Contains(s[1..], sub) {
      ContainsIff(s[1..], sub);
      var i :| OccursAt(s[1..], sub, i);
      assert s[1..][i..i + |sub|] == s[i + 1..i + 1 + |sub|];
      assert OccursAt(s, sub, i + 1);
    }
  }

  /** The empty string is included in every string. */
  lemma EmptyIsContained(s: string)
    ensures Contains(s, "")
  {
  }

  /** A string includes every piece it is glued from. */
  lemma {:induction false} ContainsMiddle(a: string, sub: string, b: string)
    ensures Contains(a + sub + b, sub)
    decreases |a|
  {
    if a == [] {
      assert (a + sub + b)[..|sub|] == sub;
    } else {
      ContainsMiddle(a[1..], sub, b);
      assert (a + sub + b)[1..] == a[1..] + sub + b;
    }
  }

  /** `sub` does not occur in `s` when no offset where it would fit starts
      with its first character. */
  lemma NotContained(s: string, sub: string)
    requires sub != []
    requires forall i :: 0 <= i <= |s| - |sub| ==> s[i] != sub[0]
    ensures !Contains(s, sub)
  {
    ContainsIff(s, sub);
  }

  /** Lower-casing distributes over concatenation. */
  lemma {:induction false} ToLowerAppend(a: string, b: string)
    ensures ToLower(a + b) == ToLower(a) + ToLower(b)
  {
    var l := ToLower(a + b);
    var r := ToLower(a) + ToLower(b);
    assert |l| == |r|;
    forall i | 0 <= i < |l| ensures l[i] == r[i] {
      if i < |a| {
        assert (a + b)[i] == a[i];
      } else {
        assert (a + b)[i] == b[i - |a|];
      }
    }
  }

  /** Lower-casing leaves a string without capitals as it is. */
  lemma LowerOfLower(s: string)
    requires forall i :: 0 <= i < |s| ==> !('A' <= s[i] <= 'Z')
    ensures ToLower(s) == s
  {
  }

  /** A lower-case word inside a string is still inside it once the string is lower-cased. */
  lemma LoweredMention(a: string, word: string, b: string)
    requires forall i :: 0 <= i < |word| ==> !('A' <= word[i] <= 'Z')
    ensures Contains(ToLower(a + word + b), word)
  {
    ToLowerAppend(a, word);
    ToLowerAppend(a + word, b);
    LowerOfLower(word);
    ContainsMiddle(ToLower(a), word, ToLower(b));
  }

  /** `s.trimEnd()`: drops trailing whitespace and nothing else. */
  function TrimEnd(s: string): (r: string)
    ensures StartsWith(s, r)
    ensures r == [] || !IsWhitespace(r[|r| - 1])
    ensures forall i :: |r| <= i < |s| ==> IsWhitespace(s[i])
  {
    if s != [] && IsWhitespace(s[|s| - 1]) then TrimEnd(s[..|s| - 1]) else s
  }

  /** `s.split(sep)` for a one-character separator: the pieces between
      separators, with an empty piece for every empty stretch. */
  function Split(s: string, sep: char): (r: seq<string>)
    ensures |r| > 0
    ensures forall i :: 0 <= i < |r| ==> sep !in r[i]
  {
    if s == [] then [""]
    else
      var rest := Split(s[1..], sep);
      if s[0] == sep then [""] + rest
      else [[s[0]] + rest[0]] + rest[1..]
  }

  /** `pieces.join(sep)`. */
  function Join(pieces: seq<string>, sep: char): string
    requires |pieces| > 0
  {
    if |pieces| == 1 then pieces[0] else pieces[0] + [sep] + Join(pieces[1..], sep)
  }

  lemma {:induction false} SplitPrefix(a: string, rest: string, sep: char)
    requires sep !in a
    ensures Split(a + rest, sep) == [a + Split(rest, sep)[0]] + Split(rest, sep)[1..]
    decreases |a|
  {
    var r := Split(rest, sep);
    if a == [] {
      assert a + rest == rest && a + r[0] == r[0];
      assert [r[0]] + r[1..] == r;
    } else {
      SplitPrefix(a[1..], rest, sep);
      assert (a + rest)[1..] == a[1..] + rest;
      var tail := Split(a[1..] + rest, sep);
      assert tail == [a[1..] + r[0]] + r[1..];
      assert tail[0] == a[1..] + r[0] && tail[1..] == r[1..];
      assert Split(a + rest, sep) == [[a[0]] + tail[0]] + tail[1..];
      assert [a[0]] + (a[1..] + r[0]) == a + r[0];
    }
  }

  /** Splitting then joining gives the string back. */
  lemma {:induction false} JoinSplit(s: string, sep: char)
    ensures Join(Split(s, sep), sep) == s
    decreases |s|
  {
    if s != [] {
      JoinSplit(s[1..], sep);
      var rest := Split(s[1..], sep);
      if s[0] != sep && |rest| > 1 {
        assert ([[s[0]] + rest[0]] + rest[1..])[1..] == rest[1..];
        assert rest[1..] == rest[1..][..];
      }
    }
  }

  /** Joining separator-free pieces then splitting gives the pieces back. */
  lemma {:induction false} SplitJoin(pieces: seq<string>, sep: char)
    requires |pieces| > 0
    requires forall i :: 0 <= i < |pieces| ==> sep !in pieces[i]
    ensures Split(Join(pieces, sep), sep) == pieces
    decreases |pieces|
  {
    if |pieces| == 1 {
      SplitPrefix(pieces[0], [], sep);
      assert pieces[0] + [] == pieces[0];
    } else {
      var tail := Join(pieces[1..], sep);
      SplitJoin(pieces[1..], sep);
      SplitPrefix(pieces[0], [sep] + tail, sep);
      assert ([sep] + tail)[1..] == tail;
      var s := Split([sep] + tail, sep);
      assert s == [""] + pieces[1..];
      assert s[0] == "" && s[1..] == pieces[1..];
      assert pieces[0] + [sep] + tail == pieces[0] + ([sep] + tail);
      assert pieces[0] + s[0] == pieces[0];
      assert pieces == [pieces[0]] + pieces[1..];
    }
  }

  function DigitChar(d: nat): (c: char)
    requires d < 10
    ensures '0' <= c <= '9' && c as int - '0' as int == d
  {
    (('0' as int) + d) as char
  }

  /** The decimal rendering of a natural number, as a template literal prints it. */
  function NatToString(n: nat): (r: string)
    ensures |r| > 0
    ensures forall i :: 0 <= i < |r| ==> '0' <= r[i] <= '9'
    ensures (|r| > 1) == (n >= 10)
    decreases n
  {
    if n < 10 then [DigitChar(n)] else NatToString(n / 10) + [DigitChar(n % 10)]
  }

  /** `"s"` when `n` is above one. */
  function Plural(n: nat): string {
    if n > 1 then "s" else ""
  }

  /** `Math.ceil(n / d)` for a natural numerator and a positive divisor. */
  function CeilDiv(n: nat, d: nat): (r: nat)
    requires d > 0
    ensures n <= r * d < n + d
  {
    if n % d == 0 then n / d else n / d + 1
  }
}

=== FILE: wrappers.dfy ===
/** The wrappers shared by the whole model: an optional value,
    a pass/fail outcome carrying an error, and a result carrying either. */
module Wrappers {

  datatype Option<+T> = None | Some(value: T) {
    function GetOr(default: T): T {
      match this
      case Some(v) => v
      case None => default
    }
  }

  /** The outcome of a guard that either returns normally or throws `error`. */
  datatype Outcome<+E> = Pass | Fail(error: E)

  /** A value, or the error an operation throws instead of returning it. */
  datatype Result<+R, +E> = Success(value: R) | Failure(error: E)
}
